=== FILE: README.md ===
# semgrep-ghes-util, modelled in Dafny

`semgrep-ghes-util` is a command-line tool that onboards the organizations of
a GitHub Enterprise Server (GHES) instance to Semgrep. It does this by
creating one Semgrep SCM config per organization. It can also list the
organizations that have no config yet, and it can patch the settings of the
configs that already exist. This project models three parts of the tool and
proves properties about them:

- **The two API clients.**
  - The GHES client normalises its base URL to end in `/api/v3`.
  - The GHES client drains the `since`-paginated organization listing.
  - The Semgrep client fetches the deployment once and memoises it.
  - The Semgrep client drains the cursor-paginated config listing.
  - The Semgrep client builds the bodies it POSTs and PATCHes.
  - The Semgrep client parses configs and health-check results, applying the source's defaults.
  - Each client turns an error response into an error carrying the status code and a message.
- **The reconciliation in the CLI.**
  - URL normalisation (strip trailing `/`, then lowercase).
  - The filter that keeps the configs of one GHES instance.
  - The case-insensitive set difference that finds the unconfigured orgs, in listing order.
  - Validation of the org names the user gives, and the reading of an org file.
  - The update payload built from the flags that were given.
  - `parse_bool` and the gate that requires `--ghes-url`.
- **The command handlers.**
  - `list-missing-configs`, `create-config`, `create-missing-configs` and `update-configs`.
  - Their best-effort loops count successes and failures and pause only *between* items.
  - Their dry runs never send a mutating request.

## How the model is built

- **The network.** It is one `Http.Transport` object. It holds a script of
  responses still to come (`pending`) and a log of the requests sent so far
  (`sent`). Each call takes the next response. When the script is exhausted,
  the call gets `None`, which stands for a connection failure after the
  retries.
- **JSON.** Decoded JSON is the `Http.Json` datatype. A Python dict becomes
  a `map<string, Json>`. `d.get(k)` becomes `Get`, `d.get(k, v)` becomes
  `GetOr`, and Python truthiness becomes `Truthy`.
- **Exceptions.** An API error becomes `ApiError(api, status, detail)`. A
  `KeyError`, `TypeError` or `AttributeError` raised while reading a body
  becomes `Malformed`. So does the `AttributeError` the CLI raises when it
  calls `.rstrip()` or `.lower()` on a config's `baseUrl` or `namespace`
  that is not a string. A body that is not JSON becomes `InvalidJson`.
- **Drains.** Each paginated drain has a specification function over the
  script of responses. These are `GithubClient.OrgsFrom`,
  `SemgrepClient.ConfigsFrom` and `SemgrepClient.ListRun` (the latter
  fetches the deployment first when it is not yet known). Each returns the
  result, the requests sent and the number of responses used. The imperative
  loop is proved equal to its function. The source's stop rules, cursor rules
  and concatenation order are proved about that function by induction.
- **Loop reports.** A best-effort loop returns a trace of `Step`s: one
  `Attempt(name, ok)` per item (the name is the login or the namespace, as
  the JSON value the source prints), plus a `Pause` wherever the source calls
  `time.sleep`.

## Model

| member | source | states |
|---|---|---|
| Cli.ParseBool | src/semgrep_ghes_util/cli.py:12-19 | `true`/`1`/`yes` give true and `false`/`0`/`no` give false, ignoring case; every other word is an error, with the source's message |
| Cli.ParseBoolIgnoresCase | src/semgrep_ghes_util/cli.py:13-16 | lowercasing the argument first changes neither acceptance nor the value |
| Cli.ParseBoolRoundTrip | src/semgrep_ghes_util/cli.py:12-19 | for every accepted spelling, writing the value back as `true` or `false` parses to the same boolean |
| Cli.GhesUrlError | src/semgrep_ghes_util/cli.py:514-519 | the error is raised exactly when the command is `ghes` or one of the four URL-reading `scm` commands and the URL is missing or empty |
| Cli.GateCoversHandlers | src/semgrep_ghes_util/cli.py:515-519 | the gate selects exactly the handlers that read `args.ghes_url`; once it passes, those handlers see a non-empty URL |
| Cli.NormalizeUrl | src/semgrep_ghes_util/cli.py:66 | the result is the URL without its trailing `/` characters, each remaining character lowercased; so it has no trailing `/` and no upper-case ASCII letter |
| Cli.NormalizeUrlIdempotent | src/semgrep_ghes_util/cli.py:66 | normalising twice is normalising once |
| Cli.NormalizeUrlIgnoresCaseAndSlash | src/semgrep_ghes_util/cli.py:66 | a URL, its lowercase form and the URL with an extra trailing `/` normalise alike |
| Text.LowerDropTrailingSlash | src/semgrep_ghes_util/cli.py:79 | stripping trailing `/` and lowercasing commute, so either order gives the same URL |
| Cli.GhesConfigs | src/semgrep_ghes_util/cli.py:77-80 | an order-preserving subsequence of the configs that keeps exactly those whose `baseUrl` is a non-empty string that normalises to the GHES URL; a falsy `baseUrl` of any type is skipped |
| Cli.Configured | src/semgrep_ghes_util/cli.py:170-174 | computing `existing_configs` and `configured_orgs` raises exactly when some config has a truthy `baseUrl` that is not a string, or some config of this instance has a namespace that is not a string; otherwise it gives the instance's configs and exactly their lowercased namespaces |
| Cli.GhesConfigsIgnoreUrlSpelling | src/semgrep_ghes_util/cli.py:66-80 | the filter gives the same configs for any case or trailing-slash spelling of the GHES URL |
| Cli.MissingOrgs | src/semgrep_ghes_util/cli.py:55-89 | the missing orgs are an order-preserving subsequence of the GHES orgs holding exactly the orgs whose lowercased login is not a lowercased namespace of a config of this instance; the second result is that filtered config list; it fails exactly when `Cli.Configured` does |
| Cli.DiscoverMissing | src/semgrep_ghes_util/cli.py:204-207 | an order-preserving subsequence of the GHES orgs holding exactly those whose lowercased login is not a configured namespace |
| Cli.MissingOrgsMatchDiscovery | src/semgrep_ghes_util/cli.py:83-87 | when the listing is readable, the set-difference form of `get_missing_orgs` picks the same orgs, in the same order, as the direct filter of `create-missing-configs` |
| Cli.OrgFileNames | src/semgrep_ghes_util/cli.py:181-184 | the names are stripped lines of the file, in file order, each non-empty and not starting with `#`; every such line is present |
| Cli.OrgFileNamesAreStripped | src/semgrep_ghes_util/cli.py:181-184 | no name read from the file has leading or trailing whitespace left |
| Text.StripIdempotent | src/semgrep_ghes_util/cli.py:182-183 | stripping twice is stripping once |
| Cli.OrgIndex | src/semgrep_ghes_util/cli.py:166 | the map's keys are exactly the lowercased logins, and each key maps to a GHES org with that lowercased login |
| Cli.OrgIndexLastWins | src/semgrep_ghes_util/cli.py:166 | when logins collide after lowercasing, the org listed last is the one kept |
| Cli.Selected | src/semgrep_ghes_util/cli.py:189-193 | at most one org per given name, each one a GHES org |
| Cli.Unknown | src/semgrep_ghes_util/cli.py:194-195 | each warned name was given and has no GHES org with that lowercased login |
| Cli.SelectionAccountsForEveryName | src/semgrep_ghes_util/cli.py:189-195 | every given name either selects its org or is reported as unknown, never both and never neither |
| Cli.SelectionOne | src/semgrep_ghes_util/cli.py:190-195 | one name selects the org indexed under its lowercased form, or else is warned about |
| Cli.SelectionAppend | src/semgrep_ghes_util/cli.py:189-195 | selection and warnings keep the order of the names: the result for a concatenation is the concatenation of the results |
| Cli.SelectSpecified | src/semgrep_ghes_util/cli.py:189-195 | the appending loop computes exactly the selected orgs and the unknown names |
| Cli.SelectedNamed | src/semgrep_ghes_util/cli.py:189-195 | every selected org's login matches, ignoring case, one of the given names |
| Cli.SpecifiedNames | src/semgrep_ghes_util/cli.py:177-184 | non-empty `--orgs` wins; otherwise the names are those read from the org file; with neither, nothing is specified |
| Cli.CreateTargets | src/semgrep_ghes_util/cli.py:170-207 | the plan fails exactly when `Cli.Configured` does, with or without names, since the source computes `configured_orgs` first; otherwise the orgs to create are GHES orgs; with names given, they are the selection and warnings of the names in the order given (see `Cli.SelectionAppend`, `Cli.SelectionOne`); with none (or an empty list), they are exactly the missing orgs and no name is unknown |
| Cli.CreateTargetsAccountForNames | src/semgrep_ghes_util/cli.py:187-195 | with names given and a readable listing, each name of a GHES org (any case) yields an org with that login, each other name is warned about, nothing else is warned about, and selections plus warnings number the names |
| Cli.UpdatePayload | src/semgrep_ghes_util/cli.py:293-305 | the payload holds exactly the flags that were given, with their values, and no other key |
| Cli.PayloadMatchesPatchBody | src/semgrep_ghes_util/cli.py:305-307 | the payload is empty exactly when the patch body would be empty, and holds each flag exactly when the body holds its key |
| Cli.UpdateTargets | src/semgrep_ghes_util/cli.py:277-290 | the plan fails exactly when some config has a truthy `baseUrl` that is not a string, or, with `--orgs` only, some config of this instance has a namespace that is not a string; otherwise the configs to patch serve this GHES instance; with `--orgs`, they are exactly the instance's configs whose lowercased namespace is among the lowercased names; without it, all configs of the instance |
| Cli.Paced | src/semgrep_ghes_util/cli.py:257-262 | (definition) the trace of a best-effort loop: the attempts in order, with one `Pause` before every attempt but the first when the delay is positive |
| Cli.PacedPauseCount | src/semgrep_ghes_util/cli.py:260-262 | with a positive delay, n attempts get exactly n-1 pauses; with no delay, none |
| Cli.PacedEndsWithAttempts | src/semgrep_ghes_util/cli.py:260-262 | the trace starts with the first attempt and ends with the last: there is no pause before the first item or after the last |
| Cli.PacedKeepsAttempts | src/semgrep_ghes_util/cli.py:234-262 | removing the pauses gives back every attempt, in order |
| Cli.OrgCreateBody | src/semgrep_ghes_util/cli.py:236-251 | (definition) the `create_scm_config` body for one org: a GHES config for its login and the URL, with the reused `--scm-id` config when one is given, else with the GHES token; its properties are `Cli.OrgCreateBodyCredentials` |
| Cli.OrgCreateBodyCredentials | src/semgrep_ghes_util/cli.py:236-251 | each body is a GHES config for that login and URL; it reuses the `--scm-id` token when one is given, otherwise it sends the GHES token, and never both |
| Cli.CreateOne | src/semgrep_ghes_util/cli.py:235-251 | one iteration of the creation loop: the POST for target `i` follows those of the targets before it, one response is used, its outcome is that reply parsed, and the cached deployment is kept |
| Cli.UpdateOne | src/semgrep_ghes_util/cli.py:325-332 | one iteration of the update loop: the PATCH for target `i` follows those of the targets before it, one response is used, its outcome is that reply parsed, and the cached deployment is kept |
| Cli.CreateEach | src/semgrep_ghes_util/cli.py:231-262 | every target gets one POST in order, whatever earlier ones returned; created + failed equals the number of targets, each counting the outcomes of that kind; the trace pauses only between items |
| Cli.UpdateEach | src/semgrep_ghes_util/cli.py:321-342 | every target gets one PATCH with the same body, in order; updated + failed equals the number of targets; the trace pauses only between items |
| Cli.InventoryReadOnly | src/semgrep_ghes_util/cli.py:72-76 | the two listings send only GET requests |
| Cli.ListInventory | src/semgrep_ghes_util/cli.py:69-76 | the orgs are listed first, then the deployment and the configs; the outcome is their specification, and the Semgrep client is left holding the deployment |
| Cli.GetMissingOrgs | src/semgrep_ghes_util/cli.py:55-89 | after the two listings the result is `MissingOrgs` (which fails on an unreadable config), or the first listing error; only GET requests are sent |
| Cli.CreateConfig | src/semgrep_ghes_util/cli.py:119-151 | a dry run sends nothing; otherwise the deployment is fetched, then one GHES config is POSTed with the GHES token; a failure of either ends the command with that error as its outcome |
| Cli.CreateMissingConfigs | src/semgrep_ghes_util/cli.py:154-265 | a listing error aborts, and so does a plan that fails (`Cli.CreateTargets`); no target (with or without names) sends nothing more; a dry run reports the targets and sends nothing more; otherwise one POST per target is made and counted; only this last case mutates |
| Cli.UpdateConfigs | src/semgrep_ghes_util/cli.py:268-345 | a listing error aborts, and so does a plan that fails (`Cli.UpdateTargets`); no matching config, an empty payload or a dry run sends nothing more; otherwise one PATCH per matching config is made and counted; only this last case mutates |
| GithubClient.ApiBase | src/semgrep_ghes_util/clients/github_client.py:63-66 | the result is the URL without its trailing slashes, with `/api/v3` appended unless it already ends with it; so an input that already ends in `/api/v3` gets no second one, and the result ends with `/api/v3` and has no trailing `/` |
| GithubClient.ApiBaseIdempotent | src/semgrep_ghes_util/clients/github_client.py:64-66 | normalising an already normalised URL changes nothing: no second `/api/v3` |
| GithubClient.ApiBaseIgnoresTrailingSlash | src/semgrep_ghes_util/clients/github_client.py:64 | an extra trailing `/` on the configured URL makes no difference |
| GithubClient.Client.constructor | src/semgrep_ghes_util/clients/github_client.py:56-66 | the client's field is reassigned step by step to the normalised base URL |
| GithubClient.HandleResponse | src/semgrep_ghes_util/clients/github_client.py:75-89 | a status of 400 or more is an error carrying that status, with the body's `message` when the body is a JSON object that has one, the response text (even empty) when it is an object without one, and otherwise the text when non-empty, else `HTTP <code>`; a lower status yields the body |
| Http.FallbackText | src/semgrep_ghes_util/clients/github_client.py:82 | the message is the response text when non-empty, else `HTTP ` followed by the decimal status code |
| Text.DecimalRoundTrip | src/semgrep_ghes_util/clients/semgrep_client.py:147 | the decimal rendering of the status code reads back as that code |
| GithubClient.ParseOrg | src/semgrep_ghes_util/clients/github_client.py:117-124 | an entry parses exactly when it has `id` and a string `login`; both are copied, and `description`/`url` are taken when present, else null |
| GithubClient.ParseOrgs | src/semgrep_ghes_util/clients/github_client.py:116-124 | a page parses exactly when every entry does, giving one org per entry in order |
| GithubClient.SinceParams | src/semgrep_ghes_util/clients/github_client.py:103-105 | the query always holds `per_page` = 100, and `since` exactly when it is truthy, with its value |
| GithubClient.OrgsPageOf | src/semgrep_ghes_util/clients/github_client.py:111-124 | (definition) one response as a page: the response error, an empty page for a falsy body, the parsed entries of a list, and `Malformed` otherwise |
| GithubClient.OrgsFrom | src/semgrep_ghes_util/clients/github_client.py:99-133 | the specification of the drain from a given `since`: its first request is that page's GET; it stops on an error, a missing response, or a page shorter than 100, and otherwise continues from the page's last id; it never uses more responses than there are |
| GithubClient.OrgsRequestsArePagedGets | src/semgrep_ghes_util/clients/github_client.py:103-110 | every request of the drain is a GET of `/organizations` with `per_page` = 100 |
| GithubClient.OrgsFromPages | src/semgrep_ghes_util/clients/github_client.py:99-133 | a successful drain used one response per request, every one of them parsed as a page, and its last page was empty or shorter than 100 entries |
| GithubClient.OrgsFromChain | src/semgrep_ghes_util/clients/github_client.py:102-131 | in a successful drain every page but the last had at least 100 entries, and the request after it carried `since` = that page's last id |
| GithubClient.OrgsFromItems | src/semgrep_ghes_util/clients/github_client.py:99-133 | a successful drain returns every entry of the pages it read, in page order |
| GithubClient.Client.ReadOrgsPage | src/semgrep_ghes_util/clients/github_client.py:111-124 | reading one response yields that page's specification |
| GithubClient.Client.ListOrganizations | src/semgrep_ghes_util/clients/github_client.py:91-133 | the loop's result, requests and responses used are exactly those of `OrgsFrom` with no initial `since` |
| Http.ReadOnlyAppend | src/semgrep_ghes_util/cli.py:72-76 | a sequence of requests made of two parts is read-only exactly when both parts are |
| Http.FirstPresentPicksFirst | src/semgrep_ghes_util/clients/semgrep_client.py:145 | the nested `.get` picks the value of the first key, in priority order, that the body has |
| Http.FirstPresentFallback | src/semgrep_ghes_util/clients/semgrep_client.py:145 | when the body has none of the keys, the fallback is used |
| Http.Handle | src/semgrep_ghes_util/clients/semgrep_client.py:140-154 | a status of 400 or more is an API error carrying the status; a lower status yields the decoded body |
| SemgrepClient.HandleResponse | src/semgrep_ghes_util/clients/semgrep_client.py:140-154 | a status of 400 or more is an error carrying that status, with `message`, else `error`, else the text, else `HTTP <code>`; a lower status yields the body |
| SemgrepClient.ParseDeployment | src/semgrep_ghes_util/clients/semgrep_client.py:169-175 | parsing succeeds exactly when `deployment` has `id`, `name` and `slug`; they are copied, and `display_name` is taken when present |
| SemgrepClient.ParseStatus | src/semgrep_ghes_util/clients/semgrep_client.py:181-191 | `ok` defaults to false, `error` to null, and `checked` is present exactly when it is truthy |
| SemgrepClient.ParseListedScopes | src/semgrep_ghes_util/clients/semgrep_client.py:194-200 | the first three scopes are read, each defaulting to false; the other four are always false |
| SemgrepClient.ParseAllScopes | src/semgrep_ghes_util/clients/semgrep_client.py:369-380 | all seven scopes are read, each defaulting to false |
| SemgrepClient.ScopeReadingsDiffer | src/semgrep_ghes_util/clients/semgrep_client.py:194-200 | the two readings agree on the first three scopes; a later scope set to true differs between them |
| SemgrepClient.ParseScmConfig | src/semgrep_ghes_util/clients/semgrep_client.py:177-223 | `id`, `type` and `namespace` are required and copied as they are, of any type; `status` is absent exactly when its key is; `tokenScopes` likewise, with only three scopes read; the flags default to false; the timestamp is present exactly when truthy |
| SemgrepClient.ParseScmConfigSucceeds | src/semgrep_ghes_util/clients/semgrep_client.py:177-223 | a config parses exactly when it is an object with `id`, `type` and `namespace`, and object `status`/`tokenScopes` when present; `namespace` and `baseUrl` may have any type, as the source does not check them |
| SemgrepClient.ParseScmConfigFields | src/semgrep_ghes_util/clients/semgrep_client.py:177-223 | `baseUrl`, `sourceId`, `githubEntityType` and `scmId` are copied, null when absent; the sync timestamp is kept exactly when truthy |
| SemgrepClient.ParseScmConfigs | src/semgrep_ghes_util/clients/semgrep_client.py:241-242 | a page parses exactly when every config does, in order |
| SemgrepClient.ConfigItems | src/semgrep_ghes_util/clients/semgrep_client.py:241 | iteration succeeds exactly for an array, which is iterated as is, and for an empty string or empty object, which yield nothing; null, booleans, numbers and non-empty strings or objects raise |
| SemgrepClient.ConfigsPageOf | src/semgrep_ghes_util/clients/semgrep_client.py:239-246 | (definition) one response as a page: the response error, `Malformed` for a body that is not an object, else the parsed `configs` (default empty) and the `cursor` |
| SemgrepClient.ParseCheckResult | src/semgrep_ghes_util/clients/semgrep_client.py:355-382 | the reading succeeds exactly when the body is an object whose `status` and `tokenScopes`, when present, are objects; a missing `status` gives not-ok with no error or timestamp; `tokenScopes` is present exactly when its key is, with all seven scopes read |
| SemgrepClient.ConfigsFrom | src/semgrep_ghes_util/clients/semgrep_client.py:230-248 | the specification of the drain from a given cursor: its first request is that page's GET; it stops on an error, a missing response or a falsy cursor, and otherwise continues with the cursor; it never uses more responses than there are |
| SemgrepClient.ListRun | src/semgrep_ghes_util/clients/semgrep_client.py:225-248 | the specification of `list_scm_configs` with the memo: with a cached deployment, `ConfigsFrom` with no cursor; otherwise the deployment fetch first, whose failure ends the listing; it never uses more responses than there are |
| SemgrepClient.ConfigsRequestsAreGets | src/semgrep_ghes_util/clients/semgrep_client.py:234-238 | every request of the config drain is a GET of the config collection |
| SemgrepClient.ListRunReadOnly | src/semgrep_ghes_util/clients/semgrep_client.py:225-248 | listing the configs, deployment fetch included, sends only GET requests |
| SemgrepClient.ConfigsFromPages | src/semgrep_ghes_util/clients/semgrep_client.py:230-248 | a successful drain used one response per request, every one of them parsed as a page, and its last page's cursor was absent or empty |
| SemgrepClient.ConfigsFromChain | src/semgrep_ghes_util/clients/semgrep_client.py:233-246 | in a successful drain every page but the last gave a truthy cursor, and the next request carried that cursor |
| SemgrepClient.ConfigsFromItems | src/semgrep_ghes_util/clients/semgrep_client.py:230-248 | a successful drain returns every config of the pages it read, in page order |
| SemgrepClient.ListRunFetchesDeploymentOnce | src/semgrep_ghes_util/clients/semgrep_client.py:156-161 | a listing fetches the deployment at most once, as its first request, and only when none was cached |
| SemgrepClient.ListRunDeployment | src/semgrep_ghes_util/clients/semgrep_client.py:156-161 | a successful uncached listing began by fetching the deployment, which is then cached |
| SemgrepClient.CreateBody | src/semgrep_ghes_util/clients/semgrep_client.py:277-293 | (definition) the six base keys, then `accessToken`, `sourceId` and `scmConfigId` each added when truthy; its properties are `CreateBodyKeys`, `CreateBodyFixed` and `CreateBodyOptional` |
| SemgrepClient.CreateBodyKeys | src/semgrep_ghes_util/clients/semgrep_client.py:277-293 | the body always holds the six base keys; `accessToken`, `sourceId` and `scmConfigId` are present exactly when their argument is truthy, and there is no other key |
| SemgrepClient.CreateBodyFixed | src/semgrep_ghes_util/clients/semgrep_client.py:277-286 | the six base keys hold the type, namespace, base URL, subscribe and auto-scan flags, and the diff-scan setting they were given, whatever optional keys are added |
| SemgrepClient.CreateBodyOptional | src/semgrep_ghes_util/clients/semgrep_client.py:287-293 | an optional key, when present, holds the value its argument carried |
| SemgrepClient.BuildCreateBody | src/semgrep_ghes_util/clients/semgrep_client.py:277-293 | building the dict in place yields `CreateBody` |
| SemgrepClient.PatchBody | src/semgrep_ghes_util/clients/semgrep_client.py:323-332 | each of `subscribe`, `autoScan` and `useNetworkBroker` is present exactly when its argument is given; `diff_enabled` appears only as `autoScanSettings.diffEnabled`; with nothing given the body is empty |
| SemgrepClient.BuildPatchBody | src/semgrep_ghes_util/clients/semgrep_client.py:323-332 | building the dict in place yields `PatchBody` |
| SemgrepClient.Client.constructor | src/semgrep_ghes_util/clients/semgrep_client.py:138 | a new client has no cached deployment |
| SemgrepClient.Client.GetDeployment | src/semgrep_ghes_util/clients/semgrep_client.py:163-175 | one GET of the deployment endpoint, whose reply is parsed |
| SemgrepClient.Client.Deployment | src/semgrep_ghes_util/clients/semgrep_client.py:156-161 | a cached deployment is returned without any request; otherwise it is fetched once and cached on success |
| SemgrepClient.ConfigReply | src/semgrep_ghes_util/clients/semgrep_client.py:299-300 | (definition) a create or patch reply: no response is a transport failure, an error response its error, and otherwise the body's `config` parsed, `Malformed` when missing |
| SemgrepClient.Client.DrainConfigs | src/semgrep_ghes_util/clients/semgrep_client.py:230-248 | with the deployment cached, the paging loop's result, requests and responses used are exactly those of `ConfigsFrom` with no cursor |
| SemgrepClient.Client.ReadConfigsPage | src/semgrep_ghes_util/clients/semgrep_client.py:239-244 | reading one response yields that page's specification |
| SemgrepClient.Client.ListScmConfigs | src/semgrep_ghes_util/clients/semgrep_client.py:225-248 | the loop's result, requests, responses used and cached deployment are exactly those of `ListRun` |
| SemgrepClient.Client.CreateScmConfig | src/semgrep_ghes_util/clients/semgrep_client.py:250-300 | after at most one deployment fetch, one POST of `CreateBody` to the deployment's configs, and the reply's `config` parsed |
| SemgrepClient.Client.PatchScmConfig | src/semgrep_ghes_util/clients/semgrep_client.py:302-339 | after at most one deployment fetch, one PATCH of `PatchBody` to that config, and the reply's `config` parsed |
| SemgrepClient.Client.CheckScmConfig | src/semgrep_ghes_util/clients/semgrep_client.py:341-382 | after at most one deployment fetch, one GET of the config's check endpoint, and the reply parsed as a check result |
| Collections.Filter | src/semgrep_ghes_util/cli.py:204-207 | a list comprehension with a condition keeps, in order, exactly the elements satisfying it |
| Collections.FilterMultiplicity | src/semgrep_ghes_util/cli.py:204-207 | the comprehension keeps each satisfying element as many times as it occurs, and no other |
| Collections.CountSplit | src/semgrep_ghes_util/cli.py:252-258 | every outcome is counted once, as a success or as a failure |

## Left out

- Transport plumbing is not part of this model: `create_retry_session`, retries with backoff, sessions and headers (tokens, `Accept`, API version). A response script stands for whatever the server finally answers. One transport carries both servers' traffic, in the order the tool sends it.
- The traceback of an exception the CLI does not catch is not modelled. The command's report carries the error instead (`CreateAborted`, `UpdateAborted`, or a `Failure` result).
- Argument parsing, `load_dotenv`, `get_env_or_exit` and `sys.exit` are not modelled. The parsed values become method parameters. The `--ghes-url` gate is kept as `Cli.GhesUrlError`.
- All printing and message formatting are not modelled. This covers the list output, the dry-run listing and the final tallies. Error texts are carried as data (`detail`), not rendered as strings.
- `scm list-configs` and `ghes list-orgs` are not modelled. They only print the listings that `SemgrepClient.Client.ListScmConfigs` and `GithubClient.Client.ListOrganizations` model.
- `time.sleep` and the float `delay`: a delay is a `Pause` step that is recorded when `delay > 0`. NaN and the length of the sleep are not modelled.
- `datetime.fromisoformat` of `checked` and `lastSuccessfulSyncAt` is not modelled. The raw value is kept when it is truthy, and a malformed timestamp is not an error here.
- The `GithubEntityType` enum is not modelled, because nothing reads it. `githubEntityType` is copied as raw JSON.
- Floating-point JSON numbers are not modelled. Numbers are integers.
- Reading and closing the `--orgs-file` handle is not modelled. The file is its sequence of lines.
- Text.Lower: lowercases ASCII letters only. Python's full Unicode case mapping is not modelled.
- GithubClient.ParseOrg: requires `login` to be a JSON string when the page is read. The source accepts any value there and fails later, at `.lower()` in the CLI. The model reports the same failure earlier, as `Malformed`.
- Cli.CreateEach: requires that the Semgrep client has already cached the deployment. This holds in the source because the loop runs after `list_scm_configs`. The model therefore does not state what a first create would fetch.
- Cli.UpdateEach: requires a cached deployment, for the same reason as `Cli.CreateEach`.

=== FILE: cli.dfy ===
/**
 * The command-line layer: boolean flags, the `--ghes-url` gate, the
 * reconciliation of GHES organizations against Semgrep SCM configs, the
 * selection of orgs to onboard, the update payload, and the best-effort
 * per-item loops that create and update configs with a pause between items.
 */
module Cli {
  import opened Wrappers
  import opened Text
  import opened Collections
  import opened Http
  import GithubClient
  import SemgrepClient

  type Organization = GithubClient.Organization
  type ScmConfig = SemgrepClient.ScmConfig

  // ---------------------------------------------------------------------
  // Flags and the URL gate
  // ---------------------------------------------------------------------

  const TrueWords: set<string> := {"true", "1", "yes"}
  const FalseWords: set<string> := {"false", "0", "no"}

  /** `parse_bool`: the accepted spellings, compared after lower-casing. */
  function ParseBool(value: string): (r: Result<bool, string>)
    ensures r == Success(true) <==> Lower(value) in TrueWords
    ensures r == Success(false) <==> Lower(value) in FalseWords
    ensures r.Failure? <==> Lower(value) !in TrueWords + FalseWords
    ensures r.Failure? ==> r.error == "Invalid boolean value: " + value + ". Use 'true' or 'false'."
  {
    if Lower(value) in TrueWords then Success(true)
    else if Lower(value) in FalseWords then Success(false)
    else Failure("Invalid boolean value: " + value + ". Use 'true' or 'false'.")
  }

  /** Case does not matter: a value and its lower-cased form parse to the same boolean. */
  lemma ParseBoolIgnoresCase(value: string)
    ensures ParseBool(Lower(value)).Success? <==> ParseBool(value).Success?
    ensures ParseBool(value).Success? ==> ParseBool(Lower(value)) == ParseBool(value)
  {
    LowerIdempotent(value);
  }

  /**
   * Whatever spelling was accepted, writing the value back as one of the two
   * spellings the error message suggests reads it back unchanged.
   */
  lemma ParseBoolRoundTrip(value: string)
    ensures ParseBool(value).Success? ==>
      ParseBool(if ParseBool(value).value then "true" else "false") == ParseBool(value)
  {
    assert Lower("true") == "true";
    assert Lower("false") == "false";
  }

  /** The sub-commands, with the names the parser gives them. */
  datatype Command =
    | ScmListConfigs | ScmListMissingConfigs | ScmCreateConfig
    | ScmCreateMissingConfigs | ScmUpdateConfigs | GhesListOrgs
  {
    function Group(): string {
      if this == GhesListOrgs then "ghes" else "scm"
    }

    function Name(): string {
      match this
      case ScmListConfigs => "list-configs"
      case ScmListMissingConfigs => "list-missing-configs"
      case ScmCreateConfig => "create-config"
      case ScmCreateMissingConfigs => "create-missing-configs"
      case ScmUpdateConfigs => "update-configs"
      case GhesListOrgs => "list-orgs"
    }

    /** Whether the command's handler reads `args.ghes_url`: all of them but `scm list-configs`. */
    predicate ReadsGhesUrl() {
      this != ScmListConfigs
    }
  }

  const GhesUrlScmCommands: seq<string> :=
    ["list-missing-configs", "create-config", "create-missing-configs", "update-configs"]

  /** `needs_ghes_url` in `main`. */
  predicate NeedsGhesUrl(command: string, scmCommand: string) {
    command == "ghes" || (command == "scm" && scmCommand in GhesUrlScmCommands)
  }

  /** The parser error `main` raises when a command needing the URL runs without one. */
  function GhesUrlError(command: string, scmCommand: string, ghesUrl: Option<string>): (r: Option<string>)
    ensures r.Some? <==> NeedsGhesUrl(command, scmCommand) && (ghesUrl.None? || ghesUrl.value == "")
  {
    if NeedsGhesUrl(command, scmCommand) && (ghesUrl.None? || ghesUrl.value == "") then
      Some("--ghes-url is required (or set GHES_URL environment variable)")
    else None
  }

  /**
   * The gate asks for the URL exactly for the commands whose handlers read
   * it, so every such handler runs with a non-empty URL.
   */
  lemma GateCoversHandlers(c: Command, ghesUrl: Option<string>)
    ensures NeedsGhesUrl(c.Group(), c.Name()) <==> c.ReadsGhesUrl()
    ensures c.ReadsGhesUrl() && GhesUrlError(c.Group(), c.Name(), ghesUrl).None? ==>
      ghesUrl.Some? && ghesUrl.value != ""
  {
  }

  // ---------------------------------------------------------------------
  // Reconciliation
  // ---------------------------------------------------------------------

  /** `url.rstrip("/").lower()`. */
  function NormalizeUrl(url: string): (r: string)
    ensures |r| <= |url|
    ensures |r| == |DropTrailing(url, IsSlash)| && forall i :: 0 <= i < |r| ==> r[i] == LowerChar(url[i])
    ensures r == [] || r[|r| - 1] != '/'
    ensures forall i :: 0 <= i < |r| ==> !('A' <= r[i] <= 'Z')
  {
    Lower(DropTrailing(url, IsSlash))
  }

  /** Normalizing twice is normalizing once. */
  lemma NormalizeUrlIdempotent(url: string)
    ensures NormalizeUrl(NormalizeUrl(url)) == NormalizeUrl(url)
  {
    var r := NormalizeUrl(url);
    assert DropTrailing(r, IsSlash) == r;
    forall i | 0 <= i < |r|
      ensures Lower(r)[i] == r[i]
    {
    }
  }

  /** Case and trailing slashes of a URL do not matter after normalizing. */
  lemma NormalizeUrlIgnoresCaseAndSlash(url: string)
    ensures NormalizeUrl(Lower(url)) == NormalizeUrl(url)
    ensures NormalizeUrl(url + "/") == NormalizeUrl(url)
  {
    LowerDropTrailingSlash(url);
    LowerDropTrailingSlash(Lower(url));
    LowerIdempotent(url);
    assert (url + "/")[..|url|] == url;
  }

  /**
   * The test `config.base_url and config.base_url.rstrip("/").lower()`
   * evaluates without raising: the base URL is falsy, or it is a string.
   */
  predicate BaseUrlReadable(c: ScmConfig) {
    !Truthy(c.baseUrl) || c.baseUrl.JStr?
  }

  /** The condition of the config filter: a non-empty base URL that normalizes to `normalized`. */
  predicate ServesGhes(c: ScmConfig, normalized: string) {
    c.baseUrl.JStr? && c.baseUrl.s != "" && NormalizeUrl(c.baseUrl.s) == normalized
  }

  /** The configs that belong to the GHES instance at `ghesUrl`, in listing order. */
  function GhesConfigs(configs: seq<ScmConfig>, ghesUrl: string): (r: seq<ScmConfig>)
    ensures IsSubsequence(r, configs)
    ensures forall i :: 0 <= i < |r| ==> r[i] in configs && r[i].baseUrl.JStr? && ServesGhes(r[i], NormalizeUrl(ghesUrl))
    ensures forall i :: 0 <= i < |configs| && ServesGhes(configs[i], NormalizeUrl(ghesUrl)) ==> configs[i] in r
  {
    Filter(configs, c => ServesGhes(c, NormalizeUrl(ghesUrl)))
  }

  /** Writing the GHES URL in another case or with trailing slashes selects the same configs. */
  lemma GhesConfigsIgnoreUrlSpelling(configs: seq<ScmConfig>, ghesUrl: string)
    ensures GhesConfigs(configs, Lower(ghesUrl) + "/") == GhesConfigs(configs, ghesUrl)
  {
    NormalizeUrlIgnoresCaseAndSlash(Lower(ghesUrl));
    NormalizeUrlIgnoresCaseAndSlash(ghesUrl);
    FilterCongruent(configs, c => ServesGhes(c, NormalizeUrl(Lower(ghesUrl) + "/")), c => ServesGhes(c, NormalizeUrl(ghesUrl)));
  }

  /** The lower-cased logins. */
  function OrgNames(orgs: seq<Organization>): set<string> {
    set o | o in orgs :: Lower(o.login)
  }

  /** The lower-cased namespaces: the orgs that already have a config. */
  function ConfiguredOrgs(configs: seq<ScmConfig>): set<string> {
    set c | c in configs && c.namespace.JStr? :: Lower(c.namespace.s)
  }

  /**
   * `existing_configs` and `configured_orgs`, which `get_missing_orgs` and
   * `create-missing-configs` both compute: the filter raises on a truthy
   * base URL that is not a string, and the lowering raises on a GHES
   * config whose namespace is not a string; no other config is read.
   */
  function Configured(configs: seq<ScmConfig>, ghesUrl: string): (r: Result<(seq<ScmConfig>, set<string>), ClientError>)
    ensures r.Success? <==>
      && (forall i :: 0 <= i < |configs| ==> BaseUrlReadable(configs[i]))
      && (forall i :: 0 <= i < |configs| && ServesGhes(configs[i], NormalizeUrl(ghesUrl)) ==> configs[i].namespace.JStr?)
    ensures r.Success? ==>
      && r.value.0 == GhesConfigs(configs, ghesUrl)
      && forall name :: name in r.value.1 <==>
           exists i :: 0 <= i < |r.value.0| && r.value.0[i].namespace.JStr? && Lower(r.value.0[i].namespace.s) == name
    ensures r.Failure? ==> r.error == Malformed
  {
    var ghesConfigs := GhesConfigs(configs, ghesUrl);
    if (forall i :: 0 <= i < |configs| ==> BaseUrlReadable(configs[i])) &&
       (forall i :: 0 <= i < |ghesConfigs| ==> ghesConfigs[i].namespace.JStr?)
    then Success((ghesConfigs, ConfiguredOrgs(ghesConfigs)))
    else Failure(Malformed)
  }

  /** The auto-discovery filter of `create-missing-configs`: orgs with no config. */
  function DiscoverMissing(orgs: seq<Organization>, ghesConfigs: seq<ScmConfig>): (r: seq<Organization>)
    ensures IsSubsequence(r, orgs)
    ensures forall i :: 0 <= i < |r| ==> r[i] in orgs && Lower(r[i].login) !in ConfiguredOrgs(ghesConfigs)
    ensures forall i :: 0 <= i < |orgs| && Lower(orgs[i].login) !in ConfiguredOrgs(ghesConfigs) ==> orgs[i] in r
  {
    Filter(orgs, (o: Organization) => Lower(o.login) !in ConfiguredOrgs(ghesConfigs))
  }

  /**
   * The pure part of `get_missing_orgs`: the set difference of lower-cased
   * names, mapped back to the GHES orgs in their listing order; and the
   * configs of this GHES instance. It raises exactly when `Configured` does.
   */
  function MissingOrgs(orgs: seq<Organization>, configs: seq<ScmConfig>, ghesUrl: string)
    : (r: Result<(seq<Organization>, seq<ScmConfig>), ClientError>)
    ensures r.Success? <==> Configured(configs, ghesUrl).Success?
    ensures r.Failure? ==> r.error == Malformed
    ensures r.Success? ==> r.value.1 == GhesConfigs(configs, ghesUrl)
    ensures r.Success? ==> IsSubsequence(r.value.0, orgs)
    ensures r.Success? ==>
      forall i :: 0 <= i < |r.value.0| ==> r.value.0[i] in orgs && Lower(r.value.0[i].login) !in ConfiguredOrgs(r.value.1)
    ensures r.Success? ==>
      forall i :: 0 <= i < |orgs| && Lower(orgs[i].login) !in ConfiguredOrgs(r.value.1) ==> orgs[i] in r.value.0
  {
    var listing :- Configured(configs, ghesUrl);
    var missingNames := OrgNames(orgs) - listing.1;
    var missing := Filter(orgs, (o: Organization) => Lower(o.login) in missingNames);
    assert forall i :: 0 <= i < |orgs| ==> Lower(orgs[i].login) in OrgNames(orgs);
    Success((missing, listing.0))
  }

  /**
   * `list-missing-configs` (set difference) and the auto-discovery of
   * `create-missing-configs` (direct filter) pick the same orgs.
   */
  lemma MissingOrgsMatchDiscovery(orgs: seq<Organization>, configs: seq<ScmConfig>, ghesUrl: string)
    ensures MissingOrgs(orgs, configs, ghesUrl).Success? ==>
      MissingOrgs(orgs, configs, ghesUrl).value.0 == DiscoverMissing(orgs, GhesConfigs(configs, ghesUrl))
  {
    var ghesConfigs := GhesConfigs(configs, ghesUrl);
    var missingNames := OrgNames(orgs) - ConfiguredOrgs(ghesConfigs);
    assert forall i :: 0 <= i < |orgs| ==> Lower(orgs[i].login) in OrgNames(orgs);
    FilterCongruent(orgs, (o: Organization) => Lower(o.login) in missingNames, (o: Organization) => Lower(o.login) !in ConfiguredOrgs(ghesConfigs));
  }

  // ---------------------------------------------------------------------
  // Choosing the orgs to onboard
  // ---------------------------------------------------------------------

  /** A kept line of an org file: not blank and not a `#` comment. */
  predicate IsOrgLine(s: string) {
    s != "" && !StartsWith(s, "#")
  }

  function Stripped(lines: seq<string>): seq<string> {
    seq(|lines|, i requires 0 <= i < |lines| => Strip(lines[i]))
  }

  /** The org names of an `--orgs-file`: the stripped lines, in file order, that are kept. */
  function OrgFileNames(lines: seq<string>): (r: seq<string>)
    ensures IsSubsequence(r, Stripped(lines))
    ensures forall i :: 0 <= i < |r| ==> r[i] in Stripped(lines) && IsOrgLine(r[i])
    ensures forall i :: 0 <= i < |lines| && IsOrgLine(Strip(lines[i])) ==> Strip(lines[i]) in r
  {
    var s := Stripped(lines);
    assert forall i :: 0 <= i < |lines| ==> s[i] == Strip(lines[i]);
    Filter(s, IsOrgLine)
  }

  /** The names read from a file carry no surrounding whitespace. */
  lemma OrgFileNamesAreStripped(lines: seq<string>)
    ensures forall i :: 0 <= i < |OrgFileNames(lines)| ==> Strip(OrgFileNames(lines)[i]) == OrgFileNames(lines)[i]
  {
    var s := Stripped(lines);
    forall j | 0 <= j < |s|
      ensures Strip(s[j]) == s[j]
    {
      StripIdempotent(lines[j]);
    }
  }

  /** `{org.login.lower(): org for org in ghes_orgs}`: a later org wins a clash of lower-cased logins. */
  function OrgIndex(orgs: seq<Organization>): (m: map<string, Organization>)
    ensures m.Keys == OrgNames(orgs)
    ensures forall k :: k in m ==> m[k] in orgs && Lower(m[k].login) == k
  {
    if orgs == [] then map[]
    else
      var init := orgs[..|orgs| - 1];
      var last := orgs[|orgs| - 1];
      assert orgs == init + [last];
      assert OrgNames(orgs) == OrgNames(init) + {Lower(last.login)};
      OrgIndex(init)[Lower(last.login) := last]
  }

  /** Each org is found under its lower-cased login unless a later org has the same one. */
  lemma {:induction false} OrgIndexLastWins(orgs: seq<Organization>, i: nat)
    requires i < |orgs|
    requires forall j :: i < j < |orgs| ==> Lower(orgs[j].login) != Lower(orgs[i].login)
    ensures OrgIndex(orgs)[Lower(orgs[i].login)] == orgs[i]
    decreases |orgs|
  {
    if i < |orgs| - 1 {
      var init := orgs[..|orgs| - 1];
      OrgIndexLastWins(init, i);
    }
  }

  /** The GHES orgs named in `names`, in the order given. */
  function Selected(names: seq<string>, index: map<string, Organization>): (r: seq<Organization>)
    ensures |r| <= |names|
    ensures forall i :: 0 <= i < |r| ==> r[i] in index.Values
  {
    if names == [] then []
    else
      var name := names[|names| - 1];
      Selected(names[..|names| - 1], index) + (if Lower(name) in index then [index[Lower(name)]] else [])
  }

  /** The names that match no GHES org, in the order given (each is warned about). */
  function Unknown(names: seq<string>, index: map<string, Organization>): (r: seq<string>)
    ensures forall i :: 0 <= i < |r| ==> r[i] in names && Lower(r[i]) !in index
  {
    if names == [] then []
    else
      var name := names[|names| - 1];
      Unknown(names[..|names| - 1], index) + (if Lower(name) in index then [] else [name])
  }

  /** One name: its org when the index has it, otherwise a warning about it. */
  lemma SelectionOne(name: string, index: map<string, Organization>)
    ensures Selected([name], index) == if Lower(name) in index then [index[Lower(name)]] else []
    ensures Unknown([name], index) == if Lower(name) in index then [] else [name]
  {
    var names := [name];
    assert names[..|names| - 1] == [];
    assert names[|names| - 1] == name;
  }

  /**
   * The selection keeps the order of the names: selecting from two lists one
   * after the other is selecting from their concatenation.
   */
  lemma {:induction false} SelectionAppend(a: seq<string>, b: seq<string>, index: map<string, Organization>)
    ensures Selected(a + b, index) == Selected(a, index) + Selected(b, index)
    ensures Unknown(a + b, index) == Unknown(a, index) + Unknown(b, index)
    decreases |b|
  {
    if b == [] {
      assert a + b == a;
    } else {
      var init := b[..|b| - 1];
      assert (a + b)[..|a + b| - 1] == a + init;
      assert (a + b)[|a + b| - 1] == b[|b| - 1];
      SelectionAppend(a, init, index);
    }
  }

  /** Every given name is either resolved to an org or reported unknown, never both or neither. */
  lemma {:induction false} SelectionAccountsForEveryName(names: seq<string>, index: map<string, Organization>)
    ensures |Selected(names, index)| + |Unknown(names, index)| == |names|
    ensures forall i :: 0 <= i < |names| && Lower(names[i]) in index ==> index[Lower(names[i])] in Selected(names, index)
    ensures forall i :: 0 <= i < |names| && Lower(names[i]) !in index ==> names[i] in Unknown(names, index)
    decreases |names|
  {
    if names != [] {
      var init := names[..|names| - 1];
      SelectionAccountsForEveryName(init, index);
      forall i | 0 <= i < |init|
        ensures names[i] == init[i]
      {
      }
    }
  }

  /** The validation loop over specified names. */
  method SelectSpecified(names: seq<string>, index: map<string, Organization>)
    returns (selected: seq<Organization>, unknown: seq<string>)
    ensures selected == Selected(names, index) && unknown == Unknown(names, index)
  {
    selected, unknown := [], [];
    var i := 0;
    while i < |names|
      invariant 0 <= i <= |names|
      invariant selected == Selected(names[..i], index) && unknown == Unknown(names[..i], index)
    {
      assert names[..i + 1][..i] == names[..i];
      var key := Lower(names[i]);
      if key in index {
        selected := selected + [index[key]];
      } else {
        unknown := unknown + [names[i]];
      }
      i := i + 1;
    }
    assert names[..|names|] == names;
  }

  /** `--orgs` when given and non-empty, else the names of `--orgs-file` when given, else none. */
  function SpecifiedNames(orgs: Option<seq<string>>, orgsFile: Option<seq<string>>): (r: Option<seq<string>>)
    ensures orgs.Some? && orgs.value != [] ==> r == orgs
    ensures !(orgs.Some? && orgs.value != []) && orgsFile.Some? ==> r == Some(OrgFileNames(orgsFile.value))
    ensures r.None? <==> (orgs.None? || orgs.value == []) && orgsFile.None?
  {
    if orgs.Some? && orgs.value != [] then orgs
    else if orgsFile.Some? then Some(OrgFileNames(orgsFile.value))
    else None
  }

  /**
   * The orgs `create-missing-configs` acts on and the names it warns about:
   * the specified names resolved through the index when there are any;
   * otherwise every GHES org without a config.
   */
  function CreateTargets(orgs: seq<Organization>, configs: seq<ScmConfig>, ghesUrl: string, specified: Option<seq<string>>)
    : (r: Result<(seq<Organization>, seq<string>), ClientError>)
    ensures r.Success? <==> Configured(configs, ghesUrl).Success?
    ensures r.Failure? ==> r.error == Malformed
    ensures r.Success? ==> forall i :: 0 <= i < |r.value.0| ==> r.value.0[i] in orgs
    ensures r.Success? && specified.Some? && specified.value != [] ==>
      forall i :: 0 <= i < |r.value.0| ==>
        exists j :: 0 <= j < |specified.value| && Lower(specified.value[j]) == Lower(r.value.0[i].login)
    ensures r.Success? && specified.Some? && specified.value != [] ==>
      r.value == (Selected(specified.value, OrgIndex(orgs)), Unknown(specified.value, OrgIndex(orgs)))
    ensures r.Success? && !(specified.Some? && specified.value != []) ==>
      r.value.0 == MissingOrgs(orgs, configs, ghesUrl).value.0 && r.value.1 == []
  {
    var listing :- Configured(configs, ghesUrl);
    if specified.Some? && specified.value != [] then
      var index := OrgIndex(orgs);
      var selected := Selected(specified.value, index);
      SelectedNamed(specified.value, index);
      Success((selected, Unknown(specified.value, index)))
    else
      MissingOrgsMatchDiscovery(orgs, configs, ghesUrl);
      Success((DiscoverMissing(orgs, listing.0), []))
  }

  /** Each selected org is the index entry of one of the given names. */
  lemma {:induction false} SelectedNamed(names: seq<string>, index: map<string, Organization>)
    requires forall k :: k in index ==> Lower(index[k].login) == k
    ensures forall i :: 0 <= i < |Selected(names, index)| ==>
      exists j :: 0 <= j < |names| && Lower(names[j]) == Lower(Selected(names, index)[i].login)
    decreases |names|
  {
    if names != [] {
      var init := names[..|names| - 1];
      SelectedNamed(init, index);
      var r := Selected(names, index);
      forall i | 0 <= i < |r|
        ensures exists j :: 0 <= j < |names| && Lower(names[j]) == Lower(r[i].login)
      {
        var prev := Selected(init, index);
        if i < |prev| {
          assert r[i] == prev[i];
          var j :| 0 <= j < |init| && Lower(init[j]) == Lower(prev[i].login);
          assert names[j] == init[j];
        } else {
          var name := names[|names| - 1];
          assert Lower(name) in index && r[i] == index[Lower(name)];
          assert Lower(names[|names| - 1]) == Lower(r[i].login);
        }
      }
      assert forall i :: 0 <= i < |r| ==> exists j :: 0 <= j < |names| && Lower(names[j]) == Lower(r[i].login);
    } else {
      assert Selected(names, index) == [];
    }
  }

  /**
   * With names given, every name of a GHES org (in any case) yields an org
   * with that login, every other name is warned about, and nothing else is
   * selected or warned about.
   */
  lemma CreateTargetsAccountForNames(orgs: seq<Organization>, configs: seq<ScmConfig>, ghesUrl: string, names: seq<string>)
    requires names != []
    ensures var r := CreateTargets(orgs, configs, ghesUrl, Some(names));
      r.Success? ==>
      && |r.value.0| + |r.value.1| == |names|
      && (forall j :: 0 <= j < |names| && Lower(names[j]) in OrgNames(orgs) ==>
            exists i :: 0 <= i < |r.value.0| && Lower(r.value.0[i].login) == Lower(names[j]))
      && (forall j :: 0 <= j < |names| && Lower(names[j]) !in OrgNames(orgs) ==> names[j] in r.value.1)
      && (forall x :: x in r.value.1 ==> x in names && Lower(x) !in OrgNames(orgs))
  {
    var index := OrgIndex(orgs);
    var r := CreateTargets(orgs, configs, ghesUrl, Some(names));
    if r.Success? {
      SelectionAccountsForEveryName(names, index);
      forall j | 0 <= j < |names| && Lower(names[j]) in OrgNames(orgs)
        ensures exists i :: 0 <= i < |r.value.0| && Lower(r.value.0[i].login) == Lower(names[j])
      {
        var o := index[Lower(names[j])];
        var i :| 0 <= i < |r.value.0| && r.value.0[i] == o;
      }
    }
  }

  // ---------------------------------------------------------------------
  // Updates
  // ---------------------------------------------------------------------

  /** The four optional settings of `update-configs`; `None` means "leave as is". */
  datatype UpdateFlags = UpdateFlags(subscribe: Option<bool>, autoScan: Option<bool>, useNetworkBroker: Option<bool>, diffEnabled: Option<bool>)
  {
    function Body(): map<string, Json> {
      SemgrepClient.PatchBody(subscribe, autoScan, useNetworkBroker, diffEnabled)
    }
  }

  /** `updates_to_apply`: the flags that are not `None`, under their option names. */
  function UpdatePayload(f: UpdateFlags): (r: map<string, bool>)
    ensures r.Keys <= {"subscribe", "auto_scan", "use_network_broker", "diff_enabled"}
    ensures ("subscribe" in r <==> f.subscribe.Some?) && ("subscribe" in r ==> r["subscribe"] == f.subscribe.value)
    ensures ("auto_scan" in r <==> f.autoScan.Some?) && ("auto_scan" in r ==> r["auto_scan"] == f.autoScan.value)
    ensures ("use_network_broker" in r <==> f.useNetworkBroker.Some?) &&
            ("use_network_broker" in r ==> r["use_network_broker"] == f.useNetworkBroker.value)
    ensures ("diff_enabled" in r <==> f.diffEnabled.Some?) && ("diff_enabled" in r ==> r["diff_enabled"] == f.diffEnabled.value)
  {
    var updates := map[
      "subscribe" := f.subscribe, "auto_scan" := f.autoScan,
      "use_network_broker" := f.useNetworkBroker, "diff_enabled" := f.diffEnabled];
    map k | k in updates && updates[k].Some? :: updates[k].value
  }

  /**
   * The payload the command checks and the body the client sends carry the
   * same settings; so "no updates" is decided exactly when the patch would
   * be empty, and no empty patch is ever sent.
   */
  lemma PayloadMatchesPatchBody(f: UpdateFlags)
    ensures UpdatePayload(f) == map[] <==> f.Body() == map[]
    ensures "subscribe" in UpdatePayload(f) <==> "subscribe" in f.Body()
    ensures "auto_scan" in UpdatePayload(f) <==> "autoScan" in f.Body()
    ensures "use_network_broker" in UpdatePayload(f) <==> "useNetworkBroker" in f.Body()
    ensures "diff_enabled" in UpdatePayload(f) <==> "autoScanSettings" in f.Body()
  {
    var r := UpdatePayload(f);
    if f.subscribe.Some? {
      assert "subscribe" in r;
    } else if f.autoScan.Some? {
      assert "auto_scan" in r;
    } else if f.useNetworkBroker.Some? {
      assert "use_network_broker" in r;
    } else if f.diffEnabled.Some? {
      assert "diff_enabled" in r;
    }
  }

  /**
   * The configs `update-configs` acts on: this GHES instance's, narrowed to
   * `--orgs` when given. The URL filter raises on a truthy base URL that is
   * not a string; the narrowing, run only with `--orgs`, raises on a
   * matching config whose namespace is not a string.
   */
  function UpdateTargets(configs: seq<ScmConfig>, ghesUrl: string, orgs: Option<seq<string>>): (r: Result<seq<ScmConfig>, ClientError>)
    ensures r.Success? <==>
      && (forall i :: 0 <= i < |configs| ==> BaseUrlReadable(configs[i]))
      && (orgs.Some? && orgs.value != [] ==>
            forall i :: 0 <= i < |configs| && ServesGhes(configs[i], NormalizeUrl(ghesUrl)) ==> configs[i].namespace.JStr?)
    ensures r.Failure? ==> r.error == Malformed
    ensures r.Success? ==> IsSubsequence(r.value, GhesConfigs(configs, ghesUrl))
    ensures r.Success? ==> forall i :: 0 <= i < |r.value| ==> r.value[i] in configs && ServesGhes(r.value[i], NormalizeUrl(ghesUrl))
    ensures r.Success? && orgs.Some? && orgs.value != [] ==>
      forall i :: 0 <= i < |r.value| ==>
        r.value[i].namespace.JStr? && Lower(r.value[i].namespace.s) in (set o | o in orgs.value :: Lower(o))
    ensures r.Success? && orgs.Some? && orgs.value != [] ==>
      forall i ::
        (0 <= i < |configs| && ServesGhes(configs[i], NormalizeUrl(ghesUrl)) && configs[i].namespace.JStr? &&
         Lower(configs[i].namespace.s) in (set o | o in orgs.value :: Lower(o)))
        ==> configs[i] in r.value
    ensures r.Success? && !(orgs.Some? && orgs.value != []) ==> r.value == GhesConfigs(configs, ghesUrl)
  {
    if !(forall i :: 0 <= i < |configs| ==> BaseUrlReadable(configs[i])) then Failure(Malformed)
    else
      var matching := GhesConfigs(configs, ghesUrl);
      if orgs.Some? && orgs.value != [] then
        if forall i :: 0 <= i < |matching| ==> matching[i].namespace.JStr? then
          var names := set o | o in orgs.value :: Lower(o);
          Success(Filter(matching, (c: ScmConfig) => c.namespace.JStr? && Lower(c.namespace.s) in names))
        else Failure(Malformed)
      else
        SubsequenceReflexive(matching);
        Success(matching)
  }

  // ---------------------------------------------------------------------
  // Best-effort loops
  // ---------------------------------------------------------------------

  /** What a loop does, in order: an attempt on a named item and whether it succeeded, or a pause. */
  datatype Step = Attempt(name: Json, ok: bool) | Pause

  /** The attempts in order, with a pause between consecutive attempts when `pausing`. */
  function Paced(attempts: seq<Step>, pausing: bool): seq<Step> {
    if attempts == [] then []
    else
      var init := attempts[..|attempts| - 1];
      Paced(init, pausing) + (if pausing && init != [] then [Pause] else []) + [attempts[|attempts| - 1]]
  }

  function PauseCount(steps: seq<Step>): nat {
    if steps == [] then 0 else PauseCount(steps[..|steps| - 1]) + (if steps[|steps| - 1].Pause? then 1 else 0)
  }

  predicate AllAttempts(steps: seq<Step>) {
    forall i :: 0 <= i < |steps| ==> steps[i].Attempt?
  }

  lemma PauseCountAppend(a: seq<Step>, b: seq<Step>)
    ensures PauseCount(a + b) == PauseCount(a) + PauseCount(b)
    decreases |b|
  {
    if b != [] {
      assert (a + b)[..|a + b| - 1] == a + b[..|b| - 1];
      PauseCountAppend(a, b[..|b| - 1]);
    } else {
      assert a + b == a;
    }
  }

  lemma PauseCountSingle(s: Step)
    ensures PauseCount([s]) == if s.Pause? then 1 else 0
  {
    assert [s][..0] == [];
  }

  /** `n` attempts get `n - 1` pauses when pausing, and none otherwise. */
  lemma {:induction false} PacedPauseCount(attempts: seq<Step>, pausing: bool)
    requires AllAttempts(attempts)
    ensures PauseCount(Paced(attempts, pausing)) == if pausing && attempts != [] then |attempts| - 1 else 0
    decreases |attempts|
  {
    if attempts != [] {
      var init := attempts[..|attempts| - 1];
      var last := attempts[|attempts| - 1];
      var mid := if pausing && init != [] then [Pause] else [];
      PacedPauseCount(init, pausing);
      assert Paced(attempts, pausing) == Paced(init, pausing) + mid + [last];
      PauseCountAppend(Paced(init, pausing), mid);
      PauseCountAppend(Paced(init, pausing) + mid, [last]);
      PauseCountSingle(last);
      PauseCountSingle(Pause);
    }
  }

  /** The trace begins and ends with an attempt: no pause before the first item or after the last. */
  lemma {:induction false} PacedEndsWithAttempts(attempts: seq<Step>, pausing: bool)
    requires attempts != []
    ensures Paced(attempts, pausing) != []
    ensures Paced(attempts, pausing)[0] == attempts[0]
    ensures Paced(attempts, pausing)[|Paced(attempts, pausing)| - 1] == attempts[|attempts| - 1]
    decreases |attempts|
  {
    var init := attempts[..|attempts| - 1];
    if init != [] {
      PacedEndsWithAttempts(init, pausing);
    }
  }

  predicate IsAttemptStep(s: Step) {
    s.Attempt?
  }

  /** Taking the pauses out of the trace gives back every attempt, in order. */
  lemma {:induction false} PacedKeepsAttempts(attempts: seq<Step>, pausing: bool)
    requires AllAttempts(attempts)
    ensures Filter(Paced(attempts, pausing), IsAttemptStep) == attempts
    decreases |attempts|
  {
    if attempts != [] {
      var init := attempts[..|attempts| - 1];
      var last := attempts[|attempts| - 1];
      assert init + [last] == attempts;
      var mid := if pausing && init != [] then [Pause] else [];
      var pre := Paced(init, pausing);
      assert Filter(mid, IsAttemptStep) == [] by {
        if mid != [] {
          FilterSingleton(Pause, IsAttemptStep);
        }
      }
      calc {
        Filter(Paced(attempts, pausing), IsAttemptStep);
        Filter((pre + mid) + [last], IsAttemptStep);
        { FilterAppend(pre + mid, [last], IsAttemptStep); }
        Filter(pre + mid, IsAttemptStep) + Filter([last], IsAttemptStep);
        { FilterAppend(pre, mid, IsAttemptStep); FilterSingleton(last, IsAttemptStep); }
        Filter(pre, IsAttemptStep) + [] + [last];
        { PacedKeepsAttempts(init, pausing); }
        init + [] + [last];
      }
    }
  }

  /** The attempt steps of the named items with the given outcomes. */
  function Attempts(names: seq<Json>, oks: seq<bool>): (r: seq<Step>)
    requires |names| == |oks|
    ensures |r| == |names| && AllAttempts(r)
  {
    seq(|names|, i requires 0 <= i < |names| => Attempt(names[i], oks[i]))
  }

  /** Proof helper: one more item adds its attempt at the end. */
  lemma AttemptsSnoc(names: seq<Json>, oks: seq<bool>, name: Json, ok: bool)
    requires |names| == |oks|
    ensures Attempts(names + [name], oks + [ok]) == Attempts(names, oks) + [Attempt(name, ok)]
  {
  }

  /** Whether each of the first `n` config replies succeeded. */
  function Outcomes(p: seq<Response>, n: nat): seq<bool> {
    seq(n, i requires 0 <= i < n => SemgrepClient.ConfigReply(At(p, i)).Success?)
  }

  /** Proof helper: one more reply adds its outcome at the end. */
  lemma OutcomesSnoc(p: seq<Response>, n: nat)
    ensures Outcomes(p, n + 1) == Outcomes(p, n) + [SemgrepClient.ConfigReply(At(p, n)).Success?]
  {
  }

  function Logins(orgs: seq<Organization>): seq<Json> {
    seq(|orgs|, i requires 0 <= i < |orgs| => JStr(orgs[i].login))
  }

  function Namespaces(configs: seq<ScmConfig>): seq<Json> {
    seq(|configs|, i requires 0 <= i < |configs| => configs[i].namespace)
  }

  /** The creation body for one org: reuse the token of `--scm-id` when given, else send the GHES token. */
  function OrgCreateBody(login: string, ghesUrl: string, ghesToken: string, scmId: Option<int>): map<string, Json> {
    if SemgrepClient.GivenId(scmId) then
      SemgrepClient.CreateBody(SemgrepClient.GithubEnterprise, login, ghesUrl, None, None, scmId, true, false, true)
    else
      SemgrepClient.CreateBody(SemgrepClient.GithubEnterprise, login, ghesUrl, Some(ghesToken), None, None, true, false, true)
  }

  /** A created config carries either the reused token's config id or the GHES token, never both. */
  lemma OrgCreateBodyCredentials(login: string, ghesUrl: string, ghesToken: string, scmId: Option<int>)
    ensures var body := OrgCreateBody(login, ghesUrl, ghesToken, scmId);
      && body["type"] == JStr("SCM_TYPE_GITHUB_ENTERPRISE") && body["namespace"] == JStr(login)
      && body["baseUrl"] == JStr(ghesUrl) && "sourceId" !in body
      && (SemgrepClient.GivenId(scmId) ==> "scmConfigId" in body && "accessToken" !in body)
      && (!SemgrepClient.GivenId(scmId) ==> "scmConfigId" !in body && ("accessToken" in body <==> ghesToken != ""))
  {
    var token := if SemgrepClient.GivenId(scmId) then None else Some(ghesToken);
    var id := if SemgrepClient.GivenId(scmId) then scmId else None;
    SemgrepClient.CreateBodyKeys(SemgrepClient.GithubEnterprise, login, ghesUrl, token, None, id, true, false, true);
    SemgrepClient.CreateBodyFixed(SemgrepClient.GithubEnterprise, login, ghesUrl, token, None, id, true, false, true);
  }

  /** The creation requests for the first `n` of `targets`, one per org, in order. */
  function CreateRequests(deploymentId: Json, targets: seq<Organization>, ghesUrl: string, ghesToken: string, scmId: Option<int>, n: nat)
    : (r: seq<Request>)
    requires n <= |targets|
    ensures |r| == n
  {
    if n == 0 then []
    else
      CreateRequests(deploymentId, targets, ghesUrl, ghesToken, scmId, n - 1) +
        [SemgrepClient.CreateRequest(deploymentId, OrgCreateBody(targets[n - 1].login, ghesUrl, ghesToken, scmId))]
  }

  /** The PATCH requests for the first `n` of `targets`, one per config, in order. */
  function PatchRequests(deploymentId: Json, targets: seq<ScmConfig>, flags: UpdateFlags, n: nat): (r: seq<Request>)
    requires n <= |targets|
    ensures |r| == n
  {
    if n == 0 then []
    else
      PatchRequests(deploymentId, targets, flags, n - 1) +
        [SemgrepClient.PatchRequest(deploymentId, targets[n - 1].id, flags.Body())]
  }

  /** The trace after `i` of `n` items: the paced attempts, and the pause owed before item `i`. */
  function Trace(names: seq<Json>, oks: seq<bool>, n: nat, pausing: bool): seq<Step>
    requires |oks| <= |names|
  {
    var i := |oks|;
    Paced(Attempts(names[..i], oks), pausing) + (if pausing && 0 < i < n then [Pause] else [])
  }

  /** One more item extends the trace by its attempt and, unless it is the last, a pause. */
  lemma TraceStep(names: seq<Json>, oks: seq<bool>, ok: bool, n: nat, pausing: bool)
    requires |oks| < |names| && |oks| < n
    ensures Trace(names, oks + [ok], n, pausing) ==
      Trace(names, oks, n, pausing) + [Attempt(names[|oks|], ok)] + (if pausing && |oks| < n - 1 then [Pause] else [])
  {
    var i := |oks|;
    AttemptsSnoc(names[..i], oks, names[i], ok);
    assert names[..i + 1] == names[..i] + [names[i]];
    var a := Attempts(names[..i + 1], oks + [ok]);
    assert a[..|a| - 1] == Attempts(names[..i], oks);
  }

  /** After the last item no pause is owed. */
  lemma TraceDone(names: seq<Json>, oks: seq<bool>, pausing: bool)
    requires |oks| == |names|
    ensures Trace(names, oks, |names|, pausing) == Paced(Attempts(names, oks), pausing)
  {
    assert names[..|names|] == names;
  }

  /** Proof helper: counting after appending one outcome. */
  lemma CountSnoc(bs: seq<bool>, b: bool)
    ensures Count(bs + [b], true) == Count(bs, true) + (if b then 1 else 0)
    ensures Count(bs + [b], false) == Count(bs, false) + (if b then 0 else 1)
  {
    assert (bs + [b])[..|bs|] == bs;
  }

  /**
   * The bookkeeping that ends each iteration of both best-effort loops: count
   * the attempt as a success or a failure, record it, and pause before the
   * next item when pausing and this is not the last one.
   */
  method RecordAttempt(
    created: nat, failed: nat, steps: seq<Step>, i: nat, name: Json, ok: bool, n: nat, pausing: bool,
    ghost names: seq<Json>, ghost oks: seq<bool>)
    returns (created': nat, failed': nat, steps': seq<Step>)
    requires i == |oks| < |names| && i < n && name == names[i]
    requires created == Count(oks, true) && failed == Count(oks, false)
    requires steps == Trace(names, oks, n, pausing)
    ensures created' == Count(oks + [ok], true) && failed' == Count(oks + [ok], false)
    ensures steps' == Trace(names, oks + [ok], n, pausing)
  {
    steps' := steps + [Attempt(name, ok)];
    if ok {
      created', failed' := created + 1, failed;
    } else {
      created', failed' := created, failed + 1;
    }
    if pausing && i < n - 1 {
      steps' := steps' + [Pause];
    }
    TraceStep(names, oks, ok, n, pausing);
    CountSnoc(oks, ok);
  }

  /**
   * Iteration `i` of the creation loop: the call with the GHES token or with
   * the reused one, whose request follows those of the orgs before it.
   */
  method CreateOne(
    sc: SemgrepClient.Client, t: Transport, targets: seq<Organization>, i: nat,
    ghesUrl: string, ghesToken: string, scmId: Option<int>, ghost sent0: seq<Request>, ghost p: seq<Response>)
    returns (r: Result<ScmConfig, ClientError>)
    requires i < |targets| && sc.deploymentMemo.Some?
    requires t.sent == sent0 + CreateRequests(sc.deploymentMemo.value.id, targets, ghesUrl, ghesToken, scmId, i)
    requires t.pending == Drop(p, i)
    modifies sc, t
    ensures sc.deploymentMemo == old(sc.deploymentMemo)
    ensures t.sent == sent0 + CreateRequests(sc.deploymentMemo.value.id, targets, ghesUrl, ghesToken, scmId, i + 1)
    ensures t.pending == Drop(p, i + 1) && r == SemgrepClient.ConfigReply(At(p, i))
  {
    ghost var id := sc.deploymentMemo.value.id;
    DropStep(p, i);
    if scmId.Some? && scmId.value != 0 {
      r := sc.CreateScmConfig(t, SemgrepClient.GithubEnterprise, targets[i].login, ghesUrl, None, None, scmId, true, false, true);
    } else {
      r := sc.CreateScmConfig(t, SemgrepClient.GithubEnterprise, targets[i].login, ghesUrl, Some(ghesToken), None, None, true, false, true);
    }
    AppendAssoc(sent0, CreateRequests(id, targets, ghesUrl, ghesToken, scmId, i),
      [SemgrepClient.CreateRequest(id, OrgCreateBody(targets[i].login, ghesUrl, ghesToken, scmId))]);
  }

  /** Iteration `i` of the update loop: one PATCH, following those of the configs before it. */
  method UpdateOne(
    sc: SemgrepClient.Client, t: Transport, targets: seq<ScmConfig>, i: nat, flags: UpdateFlags,
    ghost sent0: seq<Request>, ghost p: seq<Response>)
    returns (r: Result<ScmConfig, ClientError>)
    requires i < |targets| && sc.deploymentMemo.Some?
    requires t.sent == sent0 + PatchRequests(sc.deploymentMemo.value.id, targets, flags, i)
    requires t.pending == Drop(p, i)
    modifies sc, t
    ensures sc.deploymentMemo == old(sc.deploymentMemo)
    ensures t.sent == sent0 + PatchRequests(sc.deploymentMemo.value.id, targets, flags, i + 1)
    ensures t.pending == Drop(p, i + 1) && r == SemgrepClient.ConfigReply(At(p, i))
  {
    ghost var id := sc.deploymentMemo.value.id;
    DropStep(p, i);
    r := sc.PatchScmConfig(t, targets[i].id, flags.subscribe, flags.autoScan, flags.useNetworkBroker, flags.diffEnabled);
    AppendAssoc(sent0, PatchRequests(id, targets, flags, i), [SemgrepClient.PatchRequest(id, targets[i].id, flags.Body())]);
  }

  /**
   * The creation loop of `create-missing-configs`: every org is attempted,
   * a failure is counted and the loop goes on, and a pause separates
   * consecutive attempts when the delay is positive.
   */
  method CreateEach(
    sc: SemgrepClient.Client, t: Transport, targets: seq<Organization>,
    ghesUrl: string, ghesToken: string, scmId: Option<int>, delay: real)
    returns (created: nat, failed: nat, steps: seq<Step>)
    requires sc.deploymentMemo.Some?
    modifies sc, t
    ensures sc.deploymentMemo == old(sc.deploymentMemo)
    ensures var oks := Outcomes(old(t.pending), |targets|);
      && created == Count(oks, true) && failed == Count(oks, false)
      && steps == Paced(Attempts(Logins(targets), oks), delay > 0.0)
    ensures created + failed == |targets|
    ensures t.sent == old(t.sent) + CreateRequests(old(sc.deploymentMemo).value.id, targets, ghesUrl, ghesToken, scmId, |targets|)
    ensures t.pending == Drop(old(t.pending), |targets|)
  {
    created, failed, steps := 0, 0, [];
    ghost var p := t.pending;
    ghost var names := Logins(targets);
    ghost var id := sc.deploymentMemo.value.id;
    ghost var oks: seq<bool> := [];
    var i := 0;
    while i < |targets|
      invariant 0 <= i <= |targets| && |oks| == i
      invariant sc.deploymentMemo == old(sc.deploymentMemo)
      invariant oks == Outcomes(p, i)
      invariant created == Count(oks, true) && failed == Count(oks, false)
      invariant steps == Trace(names, oks, |targets|, delay > 0.0)
      invariant t.sent == old(t.sent) + CreateRequests(id, targets, ghesUrl, ghesToken, scmId, i)
      invariant t.pending == Drop(p, i)
    {
      var r := CreateOne(sc, t, targets, i, ghesUrl, ghesToken, scmId, old(t.sent), p);
      created, failed, steps := RecordAttempt(created, failed, steps, i, JStr(targets[i].login), r.Success?, |targets|, delay > 0.0, names, oks);
      OutcomesSnoc(p, i);
      oks := oks + [r.Success?];
      i := i + 1;
    }
    TraceDone(names, oks, delay > 0.0);
    CountSplit(oks);
  }

  /** The update loop of `update-configs`: the same best-effort shape, one PATCH per config. */
  method UpdateEach(
    sc: SemgrepClient.Client, t: Transport, targets: seq<ScmConfig>, flags: UpdateFlags, delay: real)
    returns (updated: nat, failed: nat, steps: seq<Step>)
    requires sc.deploymentMemo.Some?
    modifies sc, t
    ensures sc.deploymentMemo == old(sc.deploymentMemo)
    ensures var oks := Outcomes(old(t.pending), |targets|);
      && updated == Count(oks, true) && failed == Count(oks, false)
      && steps == Paced(Attempts(Namespaces(targets), oks), delay > 0.0)
    ensures updated + failed == |targets|
    ensures t.sent == old(t.sent) + PatchRequests(old(sc.deploymentMemo).value.id, targets, flags, |targets|)
    ensures t.pending == Drop(old(t.pending), |targets|)
  {
    updated, failed, steps := 0, 0, [];
    ghost var p := t.pending;
    ghost var names := Namespaces(targets);
    ghost var id := sc.deploymentMemo.value.id;
    ghost var oks: seq<bool> := [];
    var i := 0;
    while i < |targets|
      invariant 0 <= i <= |targets| && |oks| == i
      invariant sc.deploymentMemo == old(sc.deploymentMemo)
      invariant oks == Outcomes(p, i)
      invariant updated == Count(oks, true) && failed == Count(oks, false)
      invariant steps == Trace(names, oks, |targets|, delay > 0.0)
      invariant t.sent == old(t.sent) + PatchRequests(id, targets, flags, i)
      invariant t.pending == Drop(p, i)
    {
      var r := UpdateOne(sc, t, targets, i, flags, old(t.sent), p);
      updated, failed, steps := RecordAttempt(updated, failed, steps, i, targets[i].namespace, r.Success?, |targets|, delay > 0.0, names, oks);
      OutcomesSnoc(p, i);
      oks := oks + [r.Success?];
      i := i + 1;
    }
    TraceDone(names, oks, delay > 0.0);
    CountSplit(oks);
  }

  // ---------------------------------------------------------------------
  // Commands
  // ---------------------------------------------------------------------

  /** What the two listings at the start of a reconciling command produce. */
  datatype Inventory = Inventory(orgs: seq<Organization>, configs: seq<ScmConfig>, deployment: SemgrepClient.DeploymentInfo)

  datatype InventoryRun = InventoryRun(result: Result<Inventory, ClientError>, requests: seq<Request>, consumed: nat)

  /** Specification of the second listing, once the orgs are in hand: the deployment, then all SCM configs. */
  function InventoryConfigsFrom(orgs: seq<Organization>, q: seq<Response>): (run: InventoryRun)
    ensures run.consumed <= |q|
  {
    var d2 := SemgrepClient.ListRun(None, q);
    match d2.result
    case Failure(e) => InventoryRun(Failure(e), d2.requests, d2.consumed)
    case Success(configs) =>
      SemgrepClient.ListRunDeployment(q);
      var dep := SemgrepClient.DeploymentReply(Head(q)).value;
      InventoryRun(Success(Inventory(orgs, configs, dep)), d2.requests, d2.consumed)
  }

  /** Specification of the listings: all GHES orgs, then (deployment first) all SCM configs. */
  function InventoryFrom(ghesUrl: string, p: seq<Response>): (run: InventoryRun)
    ensures run.consumed <= |p|
  {
    var d1 := GithubClient.OrgsFrom(GithubClient.ApiBase(ghesUrl), p, JNull);
    match d1.result
    case Failure(e) => InventoryRun(Failure(e), d1.requests, d1.consumed)
    case Success(orgs) =>
      var d2 := InventoryConfigsFrom(orgs, p[d1.consumed..]);
      InventoryRun(d2.result, d1.requests + d2.requests, d1.consumed + d2.consumed)
  }

  /** Listing the configs only reads. */
  lemma InventoryConfigsReadOnly(orgs: seq<Organization>, q: seq<Response>)
    ensures ReadOnly(InventoryConfigsFrom(orgs, q).requests)
  {
    SemgrepClient.ListRunReadOnly(None, q);
  }

  /** Gathering the inventory only reads. */
  lemma InventoryReadOnly(ghesUrl: string, p: seq<Response>)
    ensures ReadOnly(InventoryFrom(ghesUrl, p).requests)
  {
    var d1 := GithubClient.OrgsFrom(GithubClient.ApiBase(ghesUrl), p, JNull);
    GithubClient.OrgsRequestsArePagedGets(GithubClient.ApiBase(ghesUrl), p, JNull);
    if d1.result.Success? {
      var d2 := InventoryConfigsFrom(d1.result.value, p[d1.consumed..]);
      InventoryConfigsReadOnly(d1.result.value, p[d1.consumed..]);
      ReadOnlyAppend(d1.requests, d2.requests);
    }
  }

  lemma InventoryOrgsFailed(ghesUrl: string, p: seq<Response>)
    requires GithubClient.OrgsFrom(GithubClient.ApiBase(ghesUrl), p, JNull).result.Failure?
    ensures var d1 := GithubClient.OrgsFrom(GithubClient.ApiBase(ghesUrl), p, JNull);
      InventoryFrom(ghesUrl, p) == InventoryRun(Failure(d1.result.error), d1.requests, d1.consumed)
  {
  }

  lemma InventoryFromUnfold(ghesUrl: string, p: seq<Response>, orgs: seq<Organization>)
    requires GithubClient.OrgsFrom(GithubClient.ApiBase(ghesUrl), p, JNull).result == Success(orgs)
    ensures var d1 := GithubClient.OrgsFrom(GithubClient.ApiBase(ghesUrl), p, JNull);
      var d2 := InventoryConfigsFrom(orgs, p[d1.consumed..]);
      InventoryFrom(ghesUrl, p) == InventoryRun(d2.result, d1.requests + d2.requests, d1.consumed + d2.consumed)
  {
  }

  /** Once the orgs are listed, the whole run is that listing followed by the second one. */
  lemma InventoryFromListed(ghesUrl: string, p: seq<Response>, sent0: seq<Request>, orgs: seq<Organization>)
    requires GithubClient.OrgsFrom(GithubClient.ApiBase(ghesUrl), p, JNull).result == Success(orgs)
    ensures var d1 := GithubClient.OrgsFrom(GithubClient.ApiBase(ghesUrl), p, JNull);
      var q := p[d1.consumed..];
      var d2 := InventoryConfigsFrom(orgs, q);
      var run := InventoryFrom(ghesUrl, p);
      && run.result == d2.result
      && sent0 + run.requests == (sent0 + d1.requests) + d2.requests
      && p[run.consumed..] == q[d2.consumed..]
  {
    var d1 := GithubClient.OrgsFrom(GithubClient.ApiBase(ghesUrl), p, JNull);
    var d2 := InventoryConfigsFrom(orgs, p[d1.consumed..]);
    InventoryFromUnfold(ghesUrl, p, orgs);
    AppendAssoc(sent0, d1.requests, d2.requests);
    DropDrop(p, d1.consumed, d2.consumed);
  }

  /** The second half of the inventory: the configs, listed once the orgs are in hand. */
  method ListInventoryConfigs(t: Transport, sc: SemgrepClient.Client, orgs: seq<Organization>) returns (r: Result<Inventory, ClientError>)
    requires sc.deploymentMemo == None
    modifies t, sc
    ensures var run := InventoryConfigsFrom(orgs, old(t.pending));
      r == run.result && t.sent == old(t.sent) + run.requests && t.pending == old(t.pending)[run.consumed..]
    ensures r.Success? ==> sc.deploymentMemo == Some(r.value.deployment)
  {
    ghost var q := t.pending;
    var configs := sc.ListScmConfigs(t);
    if configs.Failure? {
      return Failure(configs.error);
    }
    SemgrepClient.ListRunDeployment(q);
    r := Success(Inventory(orgs, configs.value, sc.deploymentMemo.value));
  }

  /** The listings once the orgs listing has answered: stop on its failure, otherwise list the configs. */
  method ListInventoryRest(t: Transport, sc: SemgrepClient.Client, orgs: Result<seq<Organization>, ClientError>, ghost ghesUrl: string, ghost p: seq<Response>, ghost sent0: seq<Request>)
    returns (r: Result<Inventory, ClientError>)
    requires sc.deploymentMemo == None
    requires var d1 := GithubClient.OrgsFrom(GithubClient.ApiBase(ghesUrl), p, JNull);
      d1.result == orgs && t.sent == sent0 + d1.requests && t.pending == p[d1.consumed..]
    modifies t, sc
    ensures var run := InventoryFrom(ghesUrl, p);
      r == run.result && t.sent == sent0 + run.requests && t.pending == p[run.consumed..]
    ensures r.Success? ==> sc.deploymentMemo == Some(r.value.deployment)
  {
    if orgs.Failure? {
      InventoryOrgsFailed(ghesUrl, p);
      return Failure(orgs.error);
    }
    InventoryFromListed(ghesUrl, p, sent0, orgs.value);
    r := ListInventoryConfigs(t, sc, orgs.value);
  }

  /** The listings with both clients in hand. */
  method ListInventoryWith(t: Transport, gc: GithubClient.Client, sc: SemgrepClient.Client, ghost ghesUrl: string) returns (r: Result<Inventory, ClientError>)
    requires gc.baseUrl == GithubClient.ApiBase(ghesUrl) && sc.deploymentMemo == None
    modifies t, sc
    ensures var run := InventoryFrom(ghesUrl, old(t.pending));
      r == run.result && t.sent == old(t.sent) + run.requests && t.pending == old(t.pending)[run.consumed..]
    ensures r.Success? ==> sc.deploymentMemo == Some(r.value.deployment)
  {
    ghost var p := t.pending;
    var orgs := gc.ListOrganizations(t);
    r := ListInventoryRest(t, sc, orgs, ghesUrl, p, old(t.sent));
  }

  /** Both clients are built from the arguments, then the orgs and the configs are listed. */
  method ListInventory(t: Transport, ghesUrl: string) returns (sc: SemgrepClient.Client, r: Result<Inventory, ClientError>)
    modifies t
    ensures fresh(sc)
    ensures var run := InventoryFrom(ghesUrl, old(t.pending));
      r == run.result && t.sent == old(t.sent) + run.requests && t.pending == old(t.pending)[run.consumed..]
    ensures r.Success? ==> sc.deploymentMemo == Some(r.value.deployment)
  {
    var gc := new GithubClient.Client(ghesUrl);
    sc := new SemgrepClient.Client();
    r := ListInventoryWith(t, gc, sc, ghesUrl);
  }

  /** `get_missing_orgs`: the listings, then the reconciliation; nothing is changed remotely. */
  method GetMissingOrgs(t: Transport, ghesUrl: string) returns (r: Result<(seq<Organization>, seq<ScmConfig>), ClientError>)
    modifies t
    ensures var run := InventoryFrom(ghesUrl, old(t.pending));
      && t.sent == old(t.sent) + run.requests
      && r == match run.result
              case Success(inv) => MissingOrgs(inv.orgs, inv.configs, ghesUrl)
              case Failure(e) => Failure(e)
    ensures |t.sent| >= |old(t.sent)| && ReadOnly(t.sent[|old(t.sent)|..])
  {
    ghost var before := t.sent;
    InventoryReadOnly(ghesUrl, t.pending);
    var sc, inv := ListInventory(t, ghesUrl);
    assert t.sent[|before|..] == InventoryFrom(ghesUrl, old(t.pending)).requests;
    if inv.Failure? {
      return Failure(inv.error);
    }
    r := MissingOrgs(inv.value.orgs, inv.value.configs, ghesUrl);
  }

  /** The outcome of `scm create-config`. */
  datatype CreateConfigReport = WouldCreateOne | CreatedOne(config: ScmConfig) | CreateOneFailed(error: ClientError)

  /** `scm create-config`: one creation with the GHES token, or nothing at all in dry-run mode. */
  method CreateConfig(t: Transport, ghesUrl: string, ghesOrg: string, ghesToken: string, dryRun: bool)
    returns (report: CreateConfigReport)
    modifies t
    ensures dryRun ==> report == WouldCreateOne && t.sent == old(t.sent) && t.pending == old(t.pending)
    ensures var body := SemgrepClient.CreateBody(SemgrepClient.GithubEnterprise, ghesOrg, ghesUrl, Some(ghesToken), None, None, true, false, true);
      var dep := SemgrepClient.DeploymentReply(Head(old(t.pending)));
      !dryRun ==>
        && (dep.Failure? ==> report == CreateOneFailed(dep.error) && t.sent == old(t.sent) + [SemgrepClient.DeploymentRequest])
        && (dep.Success? ==>
              t.sent == old(t.sent) + [SemgrepClient.DeploymentRequest, SemgrepClient.CreateRequest(dep.value.id, body)] &&
              report == match SemgrepClient.ConfigReply(Head(Tail(old(t.pending))))
                        case Success(c) => CreatedOne(c)
                        case Failure(e) => CreateOneFailed(e))
  {
    if dryRun {
      return WouldCreateOne;
    }
    var sc := new SemgrepClient.Client();
    var r := sc.CreateScmConfig(t, SemgrepClient.GithubEnterprise, ghesOrg, ghesUrl, Some(ghesToken), None, None, true, false, true);
    if r.Failure? {
      return CreateOneFailed(r.error);
    }
    return CreatedOne(r.value);
  }

  /** The outcome of `scm create-missing-configs`. */
  datatype CreateMissingReport =
    | CreateAborted(error: ClientError)
    | NoValidOrgs(unknown: seq<string>)
    | AllOnboarded
    | WouldCreate(targets: seq<Organization>, unknown: seq<string>)
    | CreatedEach(targets: seq<Organization>, unknown: seq<string>, created: nat, failed: nat, steps: seq<Step>)

  /**
   * `scm create-missing-configs`: list, choose the orgs, and unless there
   * are none or this is a dry run, create a config for each.
   */
  method CreateMissingConfigs(
    t: Transport, ghesUrl: string, ghesToken: string,
    orgs: Option<seq<string>>, orgsFile: Option<seq<string>>, scmId: Option<int>, dryRun: bool, delay: real)
    returns (report: CreateMissingReport)
    modifies t
    ensures var run := InventoryFrom(ghesUrl, old(t.pending));
      run.result.Failure? ==> report == CreateAborted(run.result.error) && t.sent == old(t.sent) + run.requests
    ensures var run := InventoryFrom(ghesUrl, old(t.pending));
      var specified := SpecifiedNames(orgs, orgsFile);
      run.result.Success? ==>
        var inv := run.result.value;
        var plan := CreateTargets(inv.orgs, inv.configs, ghesUrl, specified);
        && (plan.Failure? ==> report == CreateAborted(plan.error) && t.sent == old(t.sent) + run.requests)
        && (plan.Success? ==>
          var targets := plan.value.0;
          && (targets == [] ==>
                t.sent == old(t.sent) + run.requests &&
                report == if specified.Some? && specified.value != [] then NoValidOrgs(plan.value.1) else AllOnboarded)
          && (targets != [] && dryRun ==> t.sent == old(t.sent) + run.requests && report == WouldCreate(targets, plan.value.1))
          && (targets != [] && !dryRun ==>
                var oks := Outcomes(old(t.pending)[run.consumed..], |targets|);
                && report.CreatedEach? && report.targets == targets && report.unknown == plan.value.1
                && report.created == Count(oks, true) && report.failed == Count(oks, false)
                && report.created + report.failed == |targets|
                && report.steps == Paced(Attempts(Logins(targets), oks), delay > 0.0)
                && t.sent == old(t.sent) + run.requests + CreateRequests(inv.deployment.id, targets, ghesUrl, ghesToken, scmId, |targets|)))
    ensures dryRun ==> !report.CreatedEach?
    ensures |t.sent| >= |old(t.sent)|
    ensures !report.CreatedEach? ==> ReadOnly(t.sent[|old(t.sent)|..])
  {
    ghost var before := t.sent;
    InventoryReadOnly(ghesUrl, t.pending);
    var sc, inv := ListInventory(t, ghesUrl);
    assert t.sent[|before|..] == InventoryFrom(ghesUrl, old(t.pending)).requests;
    if inv.Failure? {
      return CreateAborted(inv.error);
    }
    var listing := Configured(inv.value.configs, ghesUrl);
    if listing.Failure? {
      return CreateAborted(listing.error);
    }
    var index := OrgIndex(inv.value.orgs);
    var specified := SpecifiedNames(orgs, orgsFile);
    ghost var plan := CreateTargets(inv.value.orgs, inv.value.configs, ghesUrl, specified);
    var targets: seq<Organization>;
    var unknown: seq<string> := [];
    if specified.Some? && specified.value != [] {
      targets, unknown := SelectSpecified(specified.value, index);
      if targets == [] {
        return NoValidOrgs(unknown);
      }
    } else {
      targets := DiscoverMissing(inv.value.orgs, listing.value.0);
      if targets == [] {
        return AllOnboarded;
      }
    }
    assert (targets, unknown) == plan.value;
    if dryRun {
      return WouldCreate(targets, unknown);
    }
    var created, failed, steps := CreateEach(sc, t, targets, ghesUrl, ghesToken, scmId, delay);
    report := CreatedEach(targets, unknown, created, failed, steps);
  }

  /** The outcome of `scm update-configs`. */
  datatype UpdateReport =
    | UpdateAborted(error: ClientError)
    | NoMatching
    | NoUpdates
    | WouldUpdate(targets: seq<ScmConfig>, payload: map<string, bool>)
    | UpdatedEach(targets: seq<ScmConfig>, payload: map<string, bool>, updated: nat, failed: nat, steps: seq<Step>)

  /**
   * `scm update-configs`: list, narrow to this GHES instance (and `--orgs`),
   * and unless nothing matches, no flag is given or this is a dry run,
   * patch each config.
   */
  method UpdateConfigs(t: Transport, ghesUrl: string, orgs: Option<seq<string>>, flags: UpdateFlags, dryRun: bool, delay: real)
    returns (report: UpdateReport)
    modifies t
    ensures var d := SemgrepClient.ListRun(None, old(t.pending));
      d.result.Failure? ==> report == UpdateAborted(d.result.error) && t.sent == old(t.sent) + d.requests
    ensures var d := SemgrepClient.ListRun(None, old(t.pending));
      d.result.Success? ==>
        var plan := UpdateTargets(d.result.value, ghesUrl, orgs);
        plan.Failure? ==> report == UpdateAborted(plan.error) && t.sent == old(t.sent) + d.requests
    ensures var d := SemgrepClient.ListRun(None, old(t.pending));
      d.result.Success? ==>
        var plan := UpdateTargets(d.result.value, ghesUrl, orgs);
        plan.Success? ==>
          var targets := plan.value;
          var payload := UpdatePayload(flags);
          && (targets == [] ==> report == NoMatching && t.sent == old(t.sent) + d.requests)
          && (targets != [] && payload == map[] ==> report == NoUpdates && t.sent == old(t.sent) + d.requests)
          && (targets != [] && payload != map[] && dryRun ==>
                report == WouldUpdate(targets, payload) && t.sent == old(t.sent) + d.requests)
          && (targets != [] && payload != map[] && !dryRun ==>
                var oks := Outcomes(old(t.pending)[d.consumed..], |targets|);
                var dep := SemgrepClient.DeploymentReply(Head(old(t.pending))).value;
                && report.UpdatedEach? && report.targets == targets && report.payload == payload
                && report.updated == Count(oks, true) && report.failed == Count(oks, false)
                && report.updated + report.failed == |targets|
                && report.steps == Paced(Attempts(Namespaces(targets), oks), delay > 0.0)
                && t.sent == old(t.sent) + d.requests + PatchRequests(dep.id, targets, flags, |targets|))
    ensures report.UpdatedEach? ==> flags.Body() != map[] && !dryRun
    ensures |t.sent| >= |old(t.sent)|
    ensures !report.UpdatedEach? ==> ReadOnly(t.sent[|old(t.sent)|..])
  {
    ghost var before := t.sent;
    ghost var p := t.pending;
    SemgrepClient.ListRunReadOnly(None, p);
    var sc := new SemgrepClient.Client();
    var configs := sc.ListScmConfigs(t);
    assert t.sent[|before|..] == SemgrepClient.ListRun(None, p).requests;
    if configs.Failure? {
      return UpdateAborted(configs.error);
    }
    SemgrepClient.ListRunDeployment(p);
    var plan := UpdateTargets(configs.value, ghesUrl, orgs);
    if plan.Failure? {
      return UpdateAborted(plan.error);
    }
    var matching := plan.value;
    if matching == [] {
      return NoMatching;
    }
    var payload := UpdatePayload(flags);
    if payload == map[] {
      return NoUpdates;
    }
    if dryRun {
      return WouldUpdate(matching, payload);
    }
    PayloadMatchesPatchBody(flags);
    var updated, failed, steps := UpdateEach(sc, t, matching, flags, delay);
    report := UpdatedEach(matching, payload, updated, failed, steps);
  }
}

=== FILE: collections.dfy ===
/** Order and counting facts shared by the list comprehensions and loops of the tool. */
module Collections {

  /**
   * `xs` can be obtained from `ys` by deleting elements, keeping the order of
   * the rest: what a list comprehension with a filter produces.
   */
  ghost predicate IsSubsequence<T>(xs: seq<T>, ys: seq<T>)
    decreases |ys|
  {
    xs == [] ||
    (ys != [] &&
     ((xs[0] == ys[0] && IsSubsequence(xs[1..], ys[1..])) || IsSubsequence(xs, ys[1..])))
  }

  /** How many entries of `bs` equal `v`. */
  function Count(bs: seq<bool>, v: bool): nat {
    if bs == [] then 0
    else Count(bs[..|bs| - 1], v) + (if bs[|bs| - 1] == v then 1 else 0)
  }

  /** Every entry is counted exactly once, as a success or as a failure. */
  lemma {:induction false} CountSplit(bs: seq<bool>)
    ensures Count(bs, true) + Count(bs, false) == |bs|
    decreases |bs|
  {
    if bs != [] {
      CountSplit(bs[..|bs| - 1]);
    }
  }

  /** `[x for x in s if p(x)]`: the entries of `s` that satisfy `p`, in order. */
  function Filter<T>(s: seq<T>, p: T -> bool): (r: seq<T>)
    ensures |r| <= |s|
    ensures forall i :: 0 <= i < |r| ==> r[i] in s && p(r[i])
    ensures forall i :: 0 <= i < |s| && p(s[i]) ==> s[i] in r
    ensures IsSubsequence(r, s)
    decreases |s|
  {
    if s == [] then []
    else
      var rest := Filter(s[1..], p);
      if p(s[0]) then
        assert ([s[0]] + rest)[1..] == rest;
        [s[0]] + rest
      else rest
  }

  /** The filter keeps each satisfying entry as many times as it occurs, and no other entry. */
  lemma {:induction false} FilterMultiplicity<T>(s: seq<T>, p: T -> bool)
    ensures forall x :: multiset(Filter(s, p))[x] == if p(x) then multiset(s)[x] else 0
    decreases |s|
  {
    if s != [] {
      FilterMultiplicity(s[1..], p);
      assert s == [s[0]] + s[1..];
      assert multiset(s) == multiset([s[0]]) + multiset(s[1..]);
      if p(s[0]) {
        assert multiset(Filter(s, p)) == multiset([s[0]]) + multiset(Filter(s[1..], p));
      }
    }
  }

  /** Two conditions that agree on the entries of `s` keep the same entries. */
  lemma {:induction false} FilterCongruent<T>(s: seq<T>, p: T -> bool, q: T -> bool)
    requires forall i :: 0 <= i < |s| ==> p(s[i]) == q(s[i])
    ensures Filter(s, p) == Filter(s, q)
    decreases |s|
  {
    if s != [] {
      FilterCongruent(s[1..], p, q);
    }
  }

  /** Filtering a concatenation filters each part. */
  lemma {:induction false} FilterAppend<T>(a: seq<T>, b: seq<T>, p: T -> bool)
    ensures Filter(a + b, p) == Filter(a, p) + Filter(b, p)
    decreases |a|
  {
    if a != [] {
      assert (a + b)[1..] == a[1..] + b;
      FilterAppend(a[1..], b, p);
    } else {
      assert a + b == b;
    }
  }

  /** A one-entry sequence keeps its entry exactly when it satisfies `p`. */
  lemma FilterSingleton<T>(x: T, p: T -> bool)
    ensures Filter([x], p) == if p(x) then [x] else []
  {
    assert [x][1..] == [];
  }

  /** A sequence is a subsequence of itself. */
  lemma {:induction false} SubsequenceReflexive<T>(s: seq<T>)
    ensures IsSubsequence(s, s)
    decreases |s|
  {
    if s != [] {
      SubsequenceReflexive(s[1..]);
    }
  }

  // Sequence identities the proofs call on; they model no behaviour of the tool.

  /** The first `i + 1` entries are the first `i` and then entry `i`. */
  lemma TakeSnoc<T>(s: seq<T>, i: nat)
    requires i < |s|
    ensures s[..i + 1] == s[..i] + [s[i]]
  {
  }

  lemma AppendAssoc<T>(a: seq<T>, b: seq<T>, c: seq<T>)
    ensures (a + b) + c == a + (b + c)
  {
  }

  lemma DropDrop<T>(s: seq<T>, i: nat, j: nat)
    requires i + j <= |s|
    ensures s[i..][j..] == s[i + j..]
  {
  }

  lemma ConsAt<T>(x: T, s: seq<T>, j: nat)
    requires j < |s|
    ensures ([x] + s)[j + 1] == s[j]
  {
  }
}

=== FILE: github_client.dfy ===
/**
 * The GitHub Enterprise Server client: the API base URL it derives, how it
 * turns a response into a value or an error, and how it drains the
 * `since`-paginated organization listing.
 */
module GithubClient {
  import opened Wrappers
  import opened Text
  import opened Http
  import opened Collections

  const ApiSuffix := "/api/v3"

  /** The page size every organization request asks for. */
  const PerPage := 100

  /** `GithubOrganization`: `description` and `url` are `None` (here `JNull`) when absent. */
  datatype Organization = Organization(id: Json, login: string, description: Json, url: Json)

  /** The API base URL the client talks to: trailing slashes dropped, `/api/v3` appended once. */
  function ApiBase(baseUrl: string): (r: string)
    ensures EndsWith(r, ApiSuffix)
    ensures DropTrailing(r, IsSlash) == r
    ensures StartsWith(r, DropTrailing(baseUrl, IsSlash))
    ensures |r| <= |DropTrailing(baseUrl, IsSlash)| + |ApiSuffix|
    ensures EndsWith(DropTrailing(baseUrl, IsSlash), ApiSuffix) ==> r == DropTrailing(baseUrl, IsSlash)
    ensures !EndsWith(DropTrailing(baseUrl, IsSlash), ApiSuffix) ==> r == DropTrailing(baseUrl, IsSlash) + ApiSuffix
  {
    var s := DropTrailing(baseUrl, IsSlash);
    var r := if EndsWith(s, ApiSuffix) then s else s + ApiSuffix;
    assert r[|r| - 1] == '3';
    assert r[..|s|] == s;
    r
  }

  /** Normalising an already normalised base URL changes nothing: no second `/api/v3`. */
  lemma ApiBaseIdempotent(baseUrl: string)
    ensures ApiBase(ApiBase(baseUrl)) == ApiBase(baseUrl)
  {
  }

  /** Trailing slashes on the configured URL make no difference. */
  lemma ApiBaseIgnoresTrailingSlash(baseUrl: string)
    ensures ApiBase(baseUrl + "/") == ApiBase(baseUrl)
  {
    var u := baseUrl + "/";
    assert u[..|u| - 1] == baseUrl;
    assert DropTrailing(u, IsSlash) == DropTrailing(baseUrl, IsSlash);
  }

  /**
   * `_handle_response`: a status of 400 or more raises an error carrying the
   * status and, as message, the body's `message`, else the response text,
   * else `HTTP <code>`; any other status yields the decoded body.
   */
  function HandleResponse(resp: Response): (r: Result<Json, ClientError>)
    ensures resp.statusCode >= 400 <==> r.Failure? && r.error.ApiError?
    ensures r.Failure? && r.error.ApiError? ==> r.error.api == GitHubApi && r.error.statusCode == resp.statusCode
    ensures resp.statusCode >= 400 && resp.json.Some? && resp.json.value.JObj? ==>
      r.error.detail == GetOr(resp.json.value.fields, "message", JStr(resp.text))
    ensures resp.statusCode >= 400 && !(resp.json.Some? && resp.json.value.JObj?) ==>
      r.error.detail == JStr(FallbackText(resp))
    ensures resp.statusCode < 400 ==> r == (if resp.json.Some? then Success(resp.json.value) else Failure(InvalidJson))
  {
    var keys := ["message"];
    assert keys[1..] == [];
    assert forall m :: FirstPresent(m, keys, JStr(resp.text)) == GetOr(m, "message", JStr(resp.text));
    Handle(GitHubApi, keys, resp)
  }

  /** One entry of the `/organizations` array; `id` and `login` are required. */
  function ParseOrg(j: Json): (r: Result<Organization, ClientError>)
    ensures r.Success? <==> j.JObj? && "id" in j.fields && "login" in j.fields && j.fields["login"].JStr?
    ensures r.Success? ==>
      r.value.id == j.fields["id"] && r.value.login == j.fields["login"].s &&
      r.value.description == Get(j.fields, "description") && r.value.url == Get(j.fields, "url")
    ensures r.Failure? ==> r.error == Malformed
  {
    match j
    case JObj(m) =>
      if "id" in m && "login" in m && m["login"].JStr? then
        Success(Organization(m["id"], m["login"].s, Get(m, "description"), Get(m, "url")))
      else
        Failure(Malformed)
    case _ => Failure(Malformed)
  }

  /** A whole page of entries: all of them parse, or the page raises. */
  function ParseOrgs(items: seq<Json>): (r: Result<seq<Organization>, ClientError>)
    ensures r.Success? <==> forall i :: 0 <= i < |items| ==> ParseOrg(items[i]).Success?
    ensures r.Success? ==>
      |r.value| == |items| && forall i :: 0 <= i < |items| ==> r.value[i] == ParseOrg(items[i]).value
    ensures r.Failure? ==> r.error == Malformed
  {
    if items == [] then Success([])
    else
      match ParseOrgs(items[..|items| - 1])
      case Failure(e) => Failure(e)
      case Success(init) =>
        match ParseOrg(items[|items| - 1])
        case Failure(e) => Failure(e)
        case Success(org) => Success(init + [org])
  }

  /** What one response contributes: an empty (falsy) body is an empty page. */
  function OrgsPageOf(resp: Response): Result<seq<Organization>, ClientError> {
    match HandleResponse(resp)
    case Failure(e) => Failure(e)
    case Success(data) =>
      if !Truthy(data) then Success([])
      else if data.JArr? then ParseOrgs(data.items)
      else Failure(Malformed)
  }

  function PageItems(resp: Response): seq<Organization> {
    match OrgsPageOf(resp)
    case Success(page) => page
    case Failure(_) => []
  }

  /** The concatenation, in order, of the pages the responses carry. */
  function AllItems(rs: seq<Response>): seq<Organization> {
    if rs == [] then [] else PageItems(rs[0]) + AllItems(rs[1..])
  }

  /** The `id` of the last organization of a page, the next request's `since`. */
  function LastId(page: seq<Organization>): Json {
    if page == [] then JNull else page[|page| - 1].id
  }

  /** `per_page` always; `since` only when it is truthy. */
  function SinceParams(since: Json): (r: map<string, Json>)
    ensures "per_page" in r && r["per_page"] == JInt(PerPage)
    ensures "since" in r <==> Truthy(since)
    ensures "since" in r ==> r["since"] == since
    ensures r.Keys <= {"per_page", "since"}
  {
    if Truthy(since) then map["per_page" := JInt(PerPage), "since" := since]
    else map["per_page" := JInt(PerPage)]
  }

  function OrgsRequest(apiBase: string, since: Json): Request {
    Request(GET, Organizations(apiBase), SinceParams(since), None)
  }

  /**
   * Specification of `list_organizations` from the request with `since` on:
   * stop on an error, on an empty page or on a page shorter than `PerPage`;
   * otherwise continue from the last id of the page.
   */
  function OrgsFrom(apiBase: string, pending: seq<Response>, since: Json): (d: Drain<Organization>)
    ensures d.consumed <= |pending| && d.requests != [] && d.requests[0] == OrgsRequest(apiBase, since)
    decreases |pending|
  {
    var req := OrgsRequest(apiBase, since);
    if pending == [] then Drain(Failure(TransportFailure), [req], 0)
    else
      match OrgsPageOf(pending[0])
      case Failure(e) => Drain(Failure(e), [req], 1)
      case Success(page) =>
        if |page| < PerPage then Drain(Success(page), [req], 1)
        else Extend(page, [req], 1, OrgsFrom(apiBase, pending[1..], LastId(page)))
  }

  /** Every request of the listing is a `GET /organizations` with `per_page` = 100. */
  lemma {:induction false} OrgsRequestsArePagedGets(apiBase: string, pending: seq<Response>, since: Json)
    ensures ReadOnly(OrgsFrom(apiBase, pending, since).requests)
    ensures forall r :: r in OrgsFrom(apiBase, pending, since).requests ==>
      r.endpoint == Organizations(apiBase) && "per_page" in r.params && r.params["per_page"] == JInt(PerPage)
    decreases |pending|
  {
    if pending != [] && OrgsPageOf(pending[0]).Success? && |OrgsPageOf(pending[0]).value| >= PerPage {
      OrgsRequestsArePagedGets(apiBase, pending[1..], LastId(OrgsPageOf(pending[0]).value));
    }
  }

  /** A successful listing read `consumed` pages, one per request, all parsed, the last one short. */
  lemma {:induction false} OrgsFromPages(apiBase: string, pending: seq<Response>, since: Json)
    requires OrgsFrom(apiBase, pending, since).result.Success?
    ensures var d := OrgsFrom(apiBase, pending, since);
      && 1 <= d.consumed == |d.requests| <= |pending|
      && (forall i :: 0 <= i < d.consumed ==> OrgsPageOf(pending[i]).Success?)
      && |PageItems(pending[d.consumed - 1])| < PerPage
    decreases |pending|
  {
    var page := OrgsPageOf(pending[0]).value;
    if |page| >= PerPage {
      var rest := OrgsFrom(apiBase, pending[1..], LastId(page));
      OrgsFromPages(apiBase, pending[1..], LastId(page));
      forall i | 1 <= i < 1 + rest.consumed
        ensures pending[i] == pending[1..][i - 1]
      {
      }
    }
  }

  /**
   * In a successful listing every page but the last held at least `PerPage`
   * entries and was followed by a request whose `since` is its last id.
   */
  lemma {:induction false} OrgsFromChain(apiBase: string, pending: seq<Response>, since: Json)
    requires OrgsFrom(apiBase, pending, since).result.Success?
    ensures var d := OrgsFrom(apiBase, pending, since);
      d.consumed <= |d.requests| &&
      forall i :: 0 <= i < d.consumed - 1 ==>
        |PageItems(pending[i])| >= PerPage &&
        d.requests[i + 1] == OrgsRequest(apiBase, LastId(PageItems(pending[i])))
    decreases |pending|
  {
    OrgsFromPages(apiBase, pending, since);
    var page := OrgsPageOf(pending[0]).value;
    if |page| >= PerPage {
      var d := OrgsFrom(apiBase, pending, since);
      var rest := OrgsFrom(apiBase, pending[1..], LastId(page));
      OrgsFromChain(apiBase, pending[1..], LastId(page));
      assert d.requests == [OrgsRequest(apiBase, since)] + rest.requests;
      assert d.consumed == 1 + rest.consumed;
      forall i | 0 <= i < d.consumed - 1
        ensures |PageItems(pending[i])| >= PerPage
        ensures d.requests[i + 1] == OrgsRequest(apiBase, LastId(PageItems(pending[i])))
      {
        if i == 0 {
          assert PageItems(pending[0]) == page;
        } else {
          assert pending[i] == pending[1..][i - 1];
          ConsAt(OrgsRequest(apiBase, since), rest.requests, i);
        }
      }
    }
  }

  /** A successful listing returns the entries of the pages it read, in order. */
  lemma {:induction false} OrgsFromItems(apiBase: string, pending: seq<Response>, since: Json)
    requires OrgsFrom(apiBase, pending, since).result.Success?
    ensures var d := OrgsFrom(apiBase, pending, since);
      d.consumed <= |pending| && d.result.value == AllItems(pending[..d.consumed])
    decreases |pending|
  {
    var d := OrgsFrom(apiBase, pending, since);
    var page := OrgsPageOf(pending[0]).value;
    if |page| < PerPage {
      assert pending[..1] == [pending[0]];
      assert AllItems(pending[..1]) == PageItems(pending[0]) + AllItems([]);
    } else {
      var rest := OrgsFrom(apiBase, pending[1..], LastId(page));
      OrgsFromItems(apiBase, pending[1..], LastId(page));
      assert d.consumed == 1 + rest.consumed;
      assert pending[..d.consumed][1..] == pending[1..][..rest.consumed];
      assert AllItems(pending[..d.consumed]) == PageItems(pending[0]) + AllItems(pending[1..][..rest.consumed]);
    }
  }

  /** A listing whose first request fails stops there, with that error. */
  lemma OrgsFromFirstFails(apiBase: string, pending: seq<Response>, since: Json)
    requires pending == [] || OrgsPageOf(pending[0]).Failure?
    ensures OrgsFrom(apiBase, pending, since) ==
      Drain(Failure(if pending == [] then TransportFailure else OrgsPageOf(pending[0]).error),
            [OrgsRequest(apiBase, since)], if pending == [] then 0 else 1)
  {
  }

  /** The loop's last step: a short page ends the listing with its entries appended. */
  lemma OrgsLastPage(orgs: seq<Organization>, reqs: seq<Request>, k: nat, apiBase: string, pending: seq<Response>, since: Json)
    requires pending != [] && OrgsPageOf(pending[0]).Success? && |OrgsPageOf(pending[0]).value| < PerPage
    ensures Extend(orgs, reqs, k, OrgsFrom(apiBase, pending, since)) ==
      Drain(Success(orgs + OrgsPageOf(pending[0]).value), reqs + [OrgsRequest(apiBase, since)], k + 1)
  {
  }

  /** The loop's step: a full page moves its entries and its request into the prefix. */
  lemma OrgsFullPage(orgs: seq<Organization>, reqs: seq<Request>, k: nat, apiBase: string, pending: seq<Response>, since: Json)
    requires pending != [] && OrgsPageOf(pending[0]).Success? && |OrgsPageOf(pending[0]).value| >= PerPage
    ensures var page := OrgsPageOf(pending[0]).value;
      Extend(orgs, reqs, k, OrgsFrom(apiBase, pending, since)) ==
        Extend(orgs + page, reqs + [OrgsRequest(apiBase, since)], k + 1, OrgsFrom(apiBase, pending[1..], LastId(page)))
  {
    var page := OrgsPageOf(pending[0]).value;
    ExtendTwice(orgs, reqs, k, page, [OrgsRequest(apiBase, since)], 1, OrgsFrom(apiBase, pending[1..], LastId(page)));
  }

  /** `GithubClient`: only the API base URL is modelled (the token goes into headers). */
  class Client {
    var baseUrl: string

    /** `__init__`: strip trailing slashes, then append `/api/v3` unless already there. */
    constructor (baseUrl: string)
      ensures this.baseUrl == ApiBase(baseUrl)
    {
      this.baseUrl := DropTrailing(baseUrl, IsSlash);
      new;
      if !EndsWith(this.baseUrl, ApiSuffix) {
        this.baseUrl := this.baseUrl + ApiSuffix;
      }
    }

    /**
     * One iteration's reading of a response: raise on an error status, treat
     * a falsy body as the end, and parse the entries one by one.
     */
    static method ReadOrgsPage(resp: Response) returns (page: Result<seq<Organization>, ClientError>)
      ensures page == OrgsPageOf(resp)
    {
      var data := HandleResponse(resp);
      if data.Failure? {
        return Failure(data.error);
      }
      if !Truthy(data.value) {
        return Success([]);
      }
      if !data.value.JArr? {
        return Failure(Malformed);
      }
      var items := data.value.items;
      var orgs: seq<Organization> := [];
      var i := 0;
      while i < |items|
        invariant 0 <= i <= |items|
        invariant ParseOrgs(items[..i]) == Success(orgs)
      {
        var org := ParseOrg(items[i]);
        if org.Failure? {
          assert !ParseOrgs(items).Success?;
          return Failure(org.error);
        }
        assert items[..i + 1][..i] == items[..i];
        orgs := orgs + [org.value];
        i := i + 1;
      }
      assert items[..|items|] == items;
      return Success(orgs);
    }

    /** One page request of `list_organizations` and the reading of its response. */
    static method FetchOrgsPage(t: Transport, apiBase: string, since: Json) returns (page: Result<seq<Organization>, ClientError>)
      modifies t
      ensures t.sent == old(t.sent) + [OrgsRequest(apiBase, since)] && t.pending == Tail(old(t.pending))
      ensures old(t.pending) == [] ==> page == Failure(TransportFailure)
      ensures old(t.pending) != [] ==> page == OrgsPageOf(old(t.pending)[0])
    {
      var resp := t.Send(OrgsRequest(apiBase, since));
      if resp.None? {
        return Failure(TransportFailure);
      }
      page := ReadOrgsPage(resp.value);
    }

    /** `list_organizations`, over the scripted transport. */
    method ListOrganizations(t: Transport) returns (r: Result<seq<Organization>, ClientError>)
      modifies t
      ensures var d := OrgsFrom(baseUrl, old(t.pending), JNull);
        r == d.result && t.sent == old(t.sent) + d.requests && t.pending == old(t.pending)[d.consumed..]
    {
      var orgs: seq<Organization> := [];
      var since := JNull;
      ghost var reqs: seq<Request> := [];
      ghost var k: nat := 0;
      ghost var whole := OrgsFrom(baseUrl, t.pending, since);
      ExtendNothing(whole);
      while true
        invariant k <= |old(t.pending)| && t.pending == old(t.pending)[k..]
        invariant t.sent == old(t.sent) + reqs
        invariant whole == Extend(orgs, reqs, k, OrgsFrom(baseUrl, t.pending, since))
        decreases |t.pending|
      {
        ghost var before := t.pending;
        var page := FetchOrgsPage(t, baseUrl, since);
        TailDrop(old(t.pending), k);
        AppendAssoc(old(t.sent), reqs, [OrgsRequest(baseUrl, since)]);
        if page.Failure? {
          OrgsFromFirstFails(baseUrl, before, since);
          return Failure(page.error);
        }
        if |page.value| < PerPage {
          OrgsLastPage(orgs, reqs, k, baseUrl, before, since);
          return Success(orgs + page.value);
        }
        OrgsFullPage(orgs, reqs, k, baseUrl, before, since);
        orgs := orgs + page.value;
        reqs := reqs + [OrgsRequest(baseUrl, since)];
        k := k + 1;
        since := LastId(page.value);
      }
    }
  }
}

=== FILE: http.dfy ===
/**
 * What the two API clients share: JSON values, the HTTP exchange, the error
 * a client raises, and a scripted transport standing in for the network.
 */
module Http {
  import opened Wrappers
  import opened Text

  /** A parsed JSON document (floating-point numbers are not modelled). */
  datatype Json =
    | JNull
    | JBool(b: bool)
    | JInt(i: int)
    | JStr(s: string)
    | JArr(items: seq<Json>)
    | JObj(fields: map<string, Json>)

  /** Python truthiness of a decoded JSON value (`if value:`). */
  predicate Truthy(j: Json) {
    match j
    case JNull => false
    case JBool(b) => b
    case JInt(i) => i != 0
    case JStr(s) => s != ""
    case JArr(items) => items != []
    case JObj(fields) => fields != map[]
  }

  /** `d.get(key)`: the value, or `None` when the key is absent. */
  function Get(m: map<string, Json>, key: string): Json {
    if key in m then m[key] else JNull
  }

  /** `d.get(key, default)`. */
  function GetOr(m: map<string, Json>, key: string, default: Json): Json {
    if key in m then m[key] else default
  }

  /** Nested `.get(k0, d.get(k1, ... fallback))`: the value of the first key present. */
  function FirstPresent(m: map<string, Json>, keys: seq<string>, fallback: Json): Json {
    if keys == [] then fallback else GetOr(m, keys[0], FirstPresent(m, keys[1..], fallback))
  }

  /** The nested lookup picks the first key, in priority order, that the object has. */
  lemma {:induction false} FirstPresentPicksFirst(m: map<string, Json>, keys: seq<string>, fallback: Json, i: nat)
    requires i < |keys| && keys[i] in m
    requires forall j :: 0 <= j < i ==> keys[j] !in m
    ensures FirstPresent(m, keys, fallback) == m[keys[i]]
    decreases i
  {
    if i > 0 {
      FirstPresentPicksFirst(m, keys[1..], fallback, i - 1);
    }
  }

  /** With none of the keys present, the nested lookup yields the fallback. */
  lemma {:induction false} FirstPresentFallback(m: map<string, Json>, keys: seq<string>, fallback: Json)
    requires forall j :: 0 <= j < |keys| ==> keys[j] !in m
    ensures FirstPresent(m, keys, fallback) == fallback
    decreases |keys|
  {
    if keys != [] {
      FirstPresentFallback(m, keys[1..], fallback);
    }
  }

  datatype Verb = GET | POST | PATCH

  /** The resources the clients address; the URL text itself is not modelled. */
  datatype Endpoint =
    | Organizations(apiBase: string)                  // {base_url}/organizations
    | AgentDeployment                                 // /agent/deployment
    | ScmConfigs(deploymentId: Json)                  // /scm/deployments/{id}/configs
    | ScmConfigItem(deploymentId: Json, configId: Json)  // .../configs/{config_id}
    | ScmConfigCheck(deploymentId: Json, configId: Json) // .../configs/{config_id}/check

  datatype Request = Request(verb: Verb, endpoint: Endpoint, params: map<string, Json>, body: Option<Json>)

  /** A request that changes remote state. */
  predicate IsMutation(r: Request) {
    r.verb != GET
  }

  /** No request in `rs` changes remote state. */
  predicate ReadOnly(rs: seq<Request>) {
    forall i :: 0 <= i < |rs| ==> !IsMutation(rs[i])
  }

  lemma ReadOnlyAppend(a: seq<Request>, b: seq<Request>)
    ensures ReadOnly(a + b) <==> ReadOnly(a) && ReadOnly(b)
  {
    if ReadOnly(a + b) {
      forall i | 0 <= i < |a|
        ensures !IsMutation(a[i])
      {
        assert a[i] == (a + b)[i];
      }
      forall i | 0 <= i < |b|
        ensures !IsMutation(b[i])
      {
        assert b[i] == (a + b)[|a| + i];
      }
    }
    if ReadOnly(a) && ReadOnly(b) {
      forall i | 0 <= i < |a + b|
        ensures !IsMutation((a + b)[i])
      {
        if i >= |a| {
          assert (a + b)[i] == b[i - |a|];
        }
      }
    }
  }

  /**
   * A response as the client sees it: the status code, the raw text, and the
   * decoded body, `None` when `response.json()` would raise.
   */
  datatype Response = Response(statusCode: nat, text: string, json: Option<Json>)

  datatype Api = GitHubApi | SemgrepApi

  /**
   * Why a client call raised. `ApiError` is `GithubApiError`/`SemgrepApiError`
   * (the message is "<api> API error: " followed by `str(detail)`);
   * `InvalidJson` is a success status whose body does not decode;
   * `Malformed` is a KeyError, TypeError or AttributeError while reading a
   * decoded body; `TransportFailure` is a request that got no response.
   */
  datatype ClientError =
    | ApiError(api: Api, statusCode: nat, detail: Json)
    | InvalidJson
    | Malformed
    | TransportFailure

  /** `response.text or f"HTTP {response.status_code}"`. */
  function FallbackText(resp: Response): (r: string)
    ensures resp.text != "" ==> r == resp.text
    ensures resp.text == "" ==>
      StartsWith(r, "HTTP ") && |r| > 5 &&
      (forall i :: 5 <= i < |r| ==> '0' <= r[i] <= '9') &&
      DecimalValue(r[5..]) == resp.statusCode
  {
    if resp.text != "" then resp.text
    else
      DecimalRoundTrip(resp.statusCode);
      "HTTP " + NatToDecimal(resp.statusCode)
  }

  /**
   * `_handle_response` of both clients, which differ only in the body keys
   * consulted for the error message (`keys`, in priority order).
   */
  function Handle(api: Api, keys: seq<string>, resp: Response): (r: Result<Json, ClientError>)
    ensures resp.statusCode >= 400 <==> r.Failure? && r.error.ApiError?
    ensures r.Failure? && r.error.ApiError? ==> r.error.api == api && r.error.statusCode == resp.statusCode
    ensures resp.statusCode < 400 ==> r == (if resp.json.Some? then Success(resp.json.value) else Failure(InvalidJson))
  {
    if resp.statusCode >= 400 then
      var detail :=
        match resp.json
        case Some(JObj(m)) => FirstPresent(m, keys, JStr(resp.text))
        case _ => JStr(FallbackText(resp));
      Failure(ApiError(api, resp.statusCode, detail))
    else if resp.json.Some? then
      Success(resp.json.value)
    else
      Failure(InvalidJson)
  }

  /**
   * The network, replaced by a script: the responses the servers will give,
   * in order, and the log of the requests the clients have sent.
   */
  class Transport {
    var pending: seq<Response>
    var sent: seq<Request>

    constructor (script: seq<Response>)
      ensures pending == script && sent == []
    {
      pending := script;
      sent := [];
    }

    /** Send one request; `None` when the script has run out (a connection failure). */
    method Send(req: Request) returns (resp: Option<Response>)
      modifies this
      ensures sent == old(sent) + [req]
      ensures resp == Head(old(pending)) && pending == Tail(old(pending))
    {
      sent := sent + [req];
      if pending == [] {
        resp := None;
      } else {
        resp := Some(pending[0]);
        pending := pending[1..];
      }
    }
  }

  function Head(p: seq<Response>): Option<Response> {
    if p == [] then None else Some(p[0])
  }

  function Tail(p: seq<Response>): seq<Response> {
    if p == [] then [] else p[1..]
  }

  /** The `i`-th scripted response, if the script is that long. */
  function At(p: seq<Response>, i: nat): Option<Response> {
    if i < |p| then Some(p[i]) else None
  }

  /** The script after `n` exchanges. */
  function Drop(p: seq<Response>, n: nat): seq<Response> {
    if n <= |p| then p[n..] else []
  }

  /** One more exchange reads the next scripted response. */
  lemma DropStep(p: seq<Response>, n: nat)
    ensures Head(Drop(p, n)) == At(p, n) && Tail(Drop(p, n)) == Drop(p, n + 1)
  {
    if n < |p| {
      assert Drop(p, n)[1..] == p[n + 1..];
    }
  }

  /** An exchange after the first `k` moves the script on by one response, if there is one left. */
  lemma TailDrop(p: seq<Response>, k: nat)
    requires k <= |p|
    ensures Tail(p[k..]) == p[if k < |p| then k + 1 else k..]
  {
    if k < |p| {
      assert p[k..][1..] == p[k + 1..];
    }
  }

  /**
   * The outcome of draining a paginated listing: the items (or the error that
   * ended it), the requests sent, and how many scripted responses were used.
   */
  datatype Drain<T> = Drain(result: Result<seq<T>, ClientError>, requests: seq<Request>, consumed: nat)

  /** A drain that had already collected `items`, sent `reqs` and used `k` responses before `rest`. */
  function Extend<T>(items: seq<T>, reqs: seq<Request>, k: nat, rest: Drain<T>): Drain<T> {
    Drain(
      match rest.result
      case Success(more) => Success(items + more)
      case Failure(e) => Failure(e),
      reqs + rest.requests,
      k + rest.consumed)
  }

  lemma ExtendNothing<T>(d: Drain<T>)
    ensures Extend([], [], 0, d) == d
  {
    if d.result.Success? {
      assert [] + d.result.value == d.result.value;
    }
    assert [] + d.requests == d.requests;
  }

  lemma ExtendTwice<T>(a: seq<T>, ra: seq<Request>, ka: nat, b: seq<T>, rb: seq<Request>, kb: nat, d: Drain<T>)
    ensures Extend(a, ra, ka, Extend(b, rb, kb, d)) == Extend(a + b, ra + rb, ka + kb, d)
  {
    if d.result.Success? {
      assert a + (b + d.result.value) == (a + b) + d.result.value;
    }
    assert ra + (rb + d.requests) == (ra + rb) + d.requests;
  }
}

=== FILE: semgrep_client.dfy ===
/**
 * The Semgrep API client: response handling, the memoised deployment, the
 * cursor-paginated listing of SCM configs, the request bodies of creation
 * and update, and the parsing of configs and health checks.
 */
module SemgrepClient {
  import opened Wrappers
  import opened Text
  import opened Http
  import opened Collections

  /** `ScmType`, with the wire value of each member. */
  datatype ScmType =
    | Github | GithubEnterprise | Gitlab | GitlabSelfManaged
    | Bitbucket | BitbucketDatacenter | AzureDevops | UnknownScm
  {
    function Value(): string {
      match this
      case Github => "SCM_TYPE_GITHUB"
      case GithubEnterprise => "SCM_TYPE_GITHUB_ENTERPRISE"
      case Gitlab => "SCM_TYPE_GITLAB"
      case GitlabSelfManaged => "SCM_TYPE_GITLAB_SELFMANAGED"
      case Bitbucket => "SCM_TYPE_BITBUCKET"
      case BitbucketDatacenter => "SCM_TYPE_BITBUCKET_DATACENTER"
      case AzureDevops => "SCM_TYPE_AZURE_DEVOPS"
      case UnknownScm => "SCM_TYPE_UNKNOWN"
    }
  }

  datatype DeploymentInfo = DeploymentInfo(id: Json, name: Json, slug: Json, displayName: Json)

  /** `ScmStatus`; `checked` is the raw timestamp, present when truthy (its ISO parsing is not modelled). */
  datatype ScmStatus = ScmStatus(checked: Option<Json>, ok: Json, error: Json)

  /** `ScmTokenScopes`: seven permission flags, each defaulting to false. */
  datatype TokenScopes = TokenScopes(
    readMetadata: Json, readPullRequest: Json, writePullRequestComment: Json,
    readContents: Json, readMembers: Json, manageWebhooks: Json, writeContents: Json)
  {
    /** The flags in the order of `ScopeKeys`. */
    function Flags(): seq<Json> {
      [readMetadata, readPullRequest, writePullRequestComment,
       readContents, readMembers, manageWebhooks, writeContents]
    }
  }

  /** The body keys of the seven scopes, in field order. */
  const ScopeKeys: seq<string> :=
    ["readMetadata", "readPullRequest", "writePullRequestComment",
     "readContents", "readMembers", "manageWebhooks", "writeContents"]

  datatype CheckResult = CheckResult(status: ScmStatus, tokenScopes: Option<TokenScopes>)

  /**
   * `ScmConfig`; `namespace` and `baseUrl` are the raw values, unchecked as
   * the source leaves them (`baseUrl` is null when absent), and
   * `lastSuccessfulSyncAt` is the raw timestamp, present when truthy.
   */
  datatype ScmConfig = ScmConfig(
    id: Json, scmType: Json, namespace: Json, sourceId: Json, baseUrl: Json,
    status: Option<ScmStatus>, installed: Json, suspended: Json, githubEntityType: Json,
    autoScan: Json, useNetworkBroker: Json, tokenScopes: Option<TokenScopes>,
    lastSuccessfulSyncAt: Option<Json>, scmId: Json)

  /**
   * `_handle_response`: a status of 400 or more raises an error carrying the
   * status and, as message, the body's `message`, else its `error`, else the
   * response text, else `HTTP <code>`; any other status yields the decoded body.
   */
  function HandleResponse(resp: Response): (r: Result<Json, ClientError>)
    ensures resp.statusCode >= 400 <==> r.Failure? && r.error.ApiError?
    ensures r.Failure? && r.error.ApiError? ==> r.error.api == SemgrepApi && r.error.statusCode == resp.statusCode
    ensures resp.statusCode >= 400 && resp.json.Some? && resp.json.value.JObj? ==>
      r.error.detail ==
        GetOr(resp.json.value.fields, "message", GetOr(resp.json.value.fields, "error", JStr(resp.text)))
    ensures resp.statusCode >= 400 && !(resp.json.Some? && resp.json.value.JObj?) ==>
      r.error.detail == JStr(FallbackText(resp))
    ensures resp.statusCode < 400 ==> r == (if resp.json.Some? then Success(resp.json.value) else Failure(InvalidJson))
  {
    var keys := ["message", "error"];
    assert keys[1..] == ["error"] && keys[1..][1..] == [];
    assert resp.json.Some? && resp.json.value.JObj? ==>
      (var m := resp.json.value.fields;
       && FirstPresent(m, keys[1..][1..], JStr(resp.text)) == JStr(resp.text)
       && FirstPresent(m, keys[1..], JStr(resp.text)) == GetOr(m, "error", JStr(resp.text))
       && FirstPresent(m, keys, JStr(resp.text)) == GetOr(m, "message", GetOr(m, "error", JStr(resp.text))));
    Handle(SemgrepApi, keys, resp)
  }

  /** `get_deployment`'s reading of the body: `data["deployment"]` with `id`, `name`, `slug`. */
  function ParseDeployment(data: Json): (r: Result<DeploymentInfo, ClientError>)
    ensures r.Success? <==>
      data.JObj? && "deployment" in data.fields && data.fields["deployment"].JObj? &&
      var d := data.fields["deployment"].fields; "id" in d && "name" in d && "slug" in d
    ensures r.Success? ==>
      var d := data.fields["deployment"].fields;
      r.value == DeploymentInfo(d["id"], d["name"], d["slug"], Get(d, "display_name"))
    ensures r.Failure? ==> r.error == Malformed
  {
    if data.JObj? && "deployment" in data.fields && data.fields["deployment"].JObj? then
      var d := data.fields["deployment"].fields;
      if "id" in d && "name" in d && "slug" in d then
        Success(DeploymentInfo(d["id"], d["name"], d["slug"], Get(d, "display_name")))
      else Failure(Malformed)
    else Failure(Malformed)
  }

  /** A status object: `ok` defaults to false, `checked` kept when truthy. */
  function ParseStatus(j: Json): (r: Result<ScmStatus, ClientError>)
    ensures r.Success? <==> j.JObj?
    ensures r.Success? ==>
      && r.value.ok == GetOr(j.fields, "ok", JBool(false))
      && r.value.error == Get(j.fields, "error")
      && (r.value.checked.Some? <==> Truthy(Get(j.fields, "checked")))
    ensures r.Failure? ==> r.error == Malformed
  {
    match j
    case JObj(m) =>
      var checked := if Truthy(Get(m, "checked")) then Some(Get(m, "checked")) else None;
      Success(ScmStatus(checked, GetOr(m, "ok", JBool(false)), Get(m, "error")))
    case _ => Failure(Malformed)
  }

  function ScopeFlag(m: map<string, Json>, i: nat): Json
    requires i < |ScopeKeys|
  {
    GetOr(m, ScopeKeys[i], JBool(false))
  }

  /** The scopes as `check_scm_config` reads them: all seven, each defaulting to false. */
  function ParseAllScopes(j: Json): (r: Result<TokenScopes, ClientError>)
    ensures r.Success? <==> j.JObj?
    ensures r.Success? ==> forall i :: 0 <= i < |ScopeKeys| ==> r.value.Flags()[i] == ScopeFlag(j.fields, i)
    ensures r.Failure? ==> r.error == Malformed
  {
    match j
    case JObj(m) =>
      Success(TokenScopes(ScopeFlag(m, 0), ScopeFlag(m, 1), ScopeFlag(m, 2), ScopeFlag(m, 3),
                          ScopeFlag(m, 4), ScopeFlag(m, 5), ScopeFlag(m, 6)))
    case _ => Failure(Malformed)
  }

  /** The scopes as `_parse_scm_config` reads them: only the first three; the other four stay false. */
  function ParseListedScopes(j: Json): (r: Result<TokenScopes, ClientError>)
    ensures r.Success? <==> j.JObj?
    ensures r.Success? ==> forall i :: 0 <= i < 3 ==> r.value.Flags()[i] == ScopeFlag(j.fields, i)
    ensures r.Success? ==> forall i :: 3 <= i < |ScopeKeys| ==> r.value.Flags()[i] == JBool(false)
    ensures r.Failure? ==> r.error == Malformed
  {
    match j
    case JObj(m) =>
      Success(TokenScopes(ScopeFlag(m, 0), ScopeFlag(m, 1), ScopeFlag(m, 2),
                          JBool(false), JBool(false), JBool(false), JBool(false)))
    case _ => Failure(Malformed)
  }

  /**
   * The two readings of one `tokenScopes` object agree on the three scopes
   * the listing reads; on the other four the listing reports false even when
   * the body grants them.
   */
  lemma ScopeReadingsDiffer(j: Json, i: nat)
    requires j.JObj? && i < |ScopeKeys|
    ensures i < 3 ==> ParseListedScopes(j).value.Flags()[i] == ParseAllScopes(j).value.Flags()[i]
    ensures i >= 3 ==> ParseListedScopes(j).value.Flags()[i] == JBool(false)
    ensures i >= 3 && ScopeKeys[i] in j.fields && j.fields[ScopeKeys[i]] == JBool(true) ==>
      ParseListedScopes(j).value.Flags()[i] != ParseAllScopes(j).value.Flags()[i]
  {
  }

  /** `_parse_scm_config`. */
  function ParseScmConfig(j: Json): (r: Result<ScmConfig, ClientError>)
    ensures r.Success? ==> j.JObj? && "id" in j.fields && "type" in j.fields && "namespace" in j.fields
    ensures r.Success? ==>
      var m := j.fields;
      && r.value.namespace == m["namespace"]
      && r.value.id == m["id"] && r.value.scmType == m["type"]
      && (r.value.status.None? <==> "status" !in m)
      && ("status" in m ==> ParseStatus(m["status"]).Success? && r.value.status == Some(ParseStatus(m["status"]).value))
      && (r.value.tokenScopes.None? <==> "tokenScopes" !in m)
      && ("tokenScopes" in m ==>
            ParseListedScopes(m["tokenScopes"]).Success? &&
            r.value.tokenScopes == Some(ParseListedScopes(m["tokenScopes"]).value))
      && r.value.autoScan == GetOr(m, "autoScan", JBool(false))
      && r.value.useNetworkBroker == GetOr(m, "useNetworkBroker", JBool(false))
      && r.value.installed == GetOr(m, "installed", JBool(false))
      && r.value.suspended == GetOr(m, "suspended", JBool(false))
      && (r.value.lastSuccessfulSyncAt.Some? <==> Truthy(Get(m, "lastSuccessfulSyncAt")))
    ensures r.Failure? ==> r.error == Malformed
  {
    match j
    case JObj(m) =>
      var status :-
        if "status" in m then
          match ParseStatus(m["status"])
          case Success(s) => Success(Some(s))
          case Failure(e) => Failure(e)
        else Success(None);
      var scopes :-
        if "tokenScopes" in m then
          match ParseListedScopes(m["tokenScopes"])
          case Success(s) => Success(Some(s))
          case Failure(e) => Failure(e)
        else Success(None);
      var lastSync := if Truthy(Get(m, "lastSuccessfulSyncAt")) then Some(Get(m, "lastSuccessfulSyncAt")) else None;
      if "id" in m && "type" in m && "namespace" in m then
        Success(ScmConfig(
          m["id"], m["type"], m["namespace"], Get(m, "sourceId"), Get(m, "baseUrl"), status,
          GetOr(m, "installed", JBool(false)), GetOr(m, "suspended", JBool(false)),
          Get(m, "githubEntityType"), GetOr(m, "autoScan", JBool(false)),
          GetOr(m, "useNetworkBroker", JBool(false)), scopes, lastSync, Get(m, "scmId")))
      else Failure(Malformed)
    case _ => Failure(Malformed)
  }

  /**
   * A config object parses exactly when it has `id`, `type` and
   * `namespace`, of any type, and `status` and `tokenScopes`, when present,
   * are objects.
   */
  lemma ParseScmConfigSucceeds(j: Json)
    ensures ParseScmConfig(j).Success? <==>
      && j.JObj? && "id" in j.fields && "type" in j.fields
      && "namespace" in j.fields
      && ("status" in j.fields ==> j.fields["status"].JObj?)
      && ("tokenScopes" in j.fields ==> j.fields["tokenScopes"].JObj?)
  {
  }

  /**
   * The fields `_parse_scm_config` copies with `.get`: `baseUrl`,
   * `sourceId`, `githubEntityType` and `scmId` are the raw values (null when
   * absent), and `lastSuccessfulSyncAt` is kept exactly when truthy.
   */
  lemma ParseScmConfigFields(j: Json)
    requires ParseScmConfig(j).Success?
    ensures var c := ParseScmConfig(j).value;
      var m := j.fields;
      && c.baseUrl == Get(m, "baseUrl")
      && c.sourceId == Get(m, "sourceId")
      && c.githubEntityType == Get(m, "githubEntityType")
      && c.scmId == Get(m, "scmId")
      && c.lastSuccessfulSyncAt == (if Truthy(Get(m, "lastSuccessfulSyncAt")) then Some(Get(m, "lastSuccessfulSyncAt")) else None)
  {
  }

  /** All entries of a page parse, or the page raises. */
  function ParseScmConfigs(items: seq<Json>): (r: Result<seq<ScmConfig>, ClientError>)
    ensures r.Success? <==> forall i :: 0 <= i < |items| ==> ParseScmConfig(items[i]).Success?
    ensures r.Success? ==>
      |r.value| == |items| && forall i :: 0 <= i < |items| ==> r.value[i] == ParseScmConfig(items[i]).value
    ensures r.Failure? ==> r.error == Malformed
  {
    if items == [] then Success([])
    else
      match ParseScmConfigs(items[..|items| - 1])
      case Failure(e) => Failure(e)
      case Success(init) =>
        match ParseScmConfig(items[|items| - 1])
        case Failure(e) => Failure(e)
        case Success(c) => Success(init + [c])
  }

  /**
   * What `for config in data.get("configs", [])` iterates over: a list's
   * entries; an empty string or object yields nothing; any other value
   * raises, either because it is not iterable or because its first element
   * is a string, which `_parse_scm_config` cannot read.
   */
  function ConfigItems(v: Json): (r: Result<seq<Json>, ClientError>)
    ensures r.Success? <==> v.JArr? || v == JStr("") || v == JObj(map[])
    ensures v.JArr? ==> r == Success(v.items)
    ensures r.Success? && !v.JArr? ==> r.value == []
    ensures r.Failure? ==> r.error == Malformed
  {
    match v
    case JArr(items) => Success(items)
    case JStr(s) => if s == "" then Success([]) else Failure(Malformed)
    case JObj(m) => if m == map[] then Success([]) else Failure(Malformed)
    case _ => Failure(Malformed)
  }

  /** One page of the config listing and the cursor it hands back. */
  datatype ConfigsPage = ConfigsPage(configs: seq<ScmConfig>, cursor: Json)

  /** What one response of the listing contributes. */
  function ConfigsPageOf(resp: Response): Result<ConfigsPage, ClientError> {
    var data :- HandleResponse(resp);
    match data
    case JObj(m) =>
      var items :- ConfigItems(GetOr(m, "configs", JArr([])));
      var configs :- ParseScmConfigs(items);
      Success(ConfigsPage(configs, Get(m, "cursor")))
    case _ => Failure(Malformed)
  }

  function PageConfigs(resp: Response): seq<ScmConfig> {
    match ConfigsPageOf(resp)
    case Success(p) => p.configs
    case Failure(_) => []
  }

  function PageCursor(resp: Response): Json {
    match ConfigsPageOf(resp)
    case Success(p) => p.cursor
    case Failure(_) => JNull
  }

  /** The concatenation, in order, of the configs the responses carry. */
  function AllConfigs(rs: seq<Response>): seq<ScmConfig> {
    if rs == [] then [] else PageConfigs(rs[0]) + AllConfigs(rs[1..])
  }

  const DeploymentRequest := Request(GET, AgentDeployment, map[], None)

  /** `{"cursor": cursor} if cursor else {}`. */
  function ConfigsPageRequest(deploymentId: Json, cursor: Json): Request {
    Request(GET, ScmConfigs(deploymentId), if Truthy(cursor) then map["cursor" := cursor] else map[], None)
  }

  function CreateRequest(deploymentId: Json, body: map<string, Json>): Request {
    Request(POST, ScmConfigs(deploymentId), map[], Some(JObj(body)))
  }

  function PatchRequest(deploymentId: Json, configId: Json, body: map<string, Json>): Request {
    Request(PATCH, ScmConfigItem(deploymentId, configId), map[], Some(JObj(body)))
  }

  function CheckRequest(deploymentId: Json, configId: Json): Request {
    Request(GET, ScmConfigCheck(deploymentId, configId), map[], None)
  }

  /** The deployment a response (or its absence) yields. */
  function DeploymentReply(resp: Option<Response>): Result<DeploymentInfo, ClientError> {
    match resp
    case None => Failure(TransportFailure)
    case Some(x) =>
      var data :- HandleResponse(x);
      ParseDeployment(data)
  }

  /** `_parse_scm_config(data["config"])` after `_handle_response`. */
  function ConfigReply(resp: Option<Response>): Result<ScmConfig, ClientError> {
    match resp
    case None => Failure(TransportFailure)
    case Some(x) =>
      var data :- HandleResponse(x);
      if data.JObj? && "config" in data.fields then ParseScmConfig(data.fields["config"]) else Failure(Malformed)
  }

  /** `check_scm_config`'s reading of the body. */
  function ParseCheckResult(data: Json): (r: Result<CheckResult, ClientError>)
    ensures r.Success? <==>
      && data.JObj?
      && ("status" in data.fields ==> data.fields["status"].JObj?)
      && ("tokenScopes" in data.fields ==> data.fields["tokenScopes"].JObj?)
    ensures r.Success? && "status" !in data.fields ==> r.value.status == ScmStatus(None, JBool(false), JNull)
    ensures r.Success? && "status" in data.fields ==>
      ParseStatus(data.fields["status"]).Success? && r.value.status == ParseStatus(data.fields["status"]).value
    ensures r.Success? ==> (r.value.tokenScopes.Some? <==> "tokenScopes" in data.fields)
    ensures r.Success? && "tokenScopes" in data.fields ==>
      ParseAllScopes(data.fields["tokenScopes"]).Success? &&
      r.value.tokenScopes == Some(ParseAllScopes(data.fields["tokenScopes"]).value)
    ensures r.Failure? ==> r.error == Malformed
  {
    match data
    case JObj(m) =>
      var status :- ParseStatus(GetOr(m, "status", JObj(map[])));
      var scopes :-
        if "tokenScopes" in m then
          match ParseAllScopes(m["tokenScopes"])
          case Success(s) => Success(Some(s))
          case Failure(e) => Failure(e)
        else Success(None);
      Success(CheckResult(status, scopes))
    case _ => Failure(Malformed)
  }

  function CheckReply(resp: Option<Response>): Result<CheckResult, ClientError> {
    match resp
    case None => Failure(TransportFailure)
    case Some(x) =>
      var data :- HandleResponse(x);
      ParseCheckResult(data)
  }

  /**
   * Specification of `list_scm_configs` once the deployment is known, from the
   * request with `cursor` on: stop on an error or after a page whose cursor is
   * absent or empty; otherwise ask again with that cursor.
   */
  function ConfigsFrom(deploymentId: Json, pending: seq<Response>, cursor: Json): (d: Drain<ScmConfig>)
    ensures d.consumed <= |pending| && d.requests != [] && d.requests[0] == ConfigsPageRequest(deploymentId, cursor)
    decreases |pending|
  {
    var req := ConfigsPageRequest(deploymentId, cursor);
    if pending == [] then Drain(Failure(TransportFailure), [req], 0)
    else
      match ConfigsPageOf(pending[0])
      case Failure(e) => Drain(Failure(e), [req], 1)
      case Success(page) =>
        if !Truthy(page.cursor) then Drain(Success(page.configs), [req], 1)
        else Extend(page.configs, [req], 1, ConfigsFrom(deploymentId, pending[1..], page.cursor))
  }

  /** The whole of `list_scm_configs`, including the deployment fetch when it is not yet cached. */
  function ListRun(memo: Option<DeploymentInfo>, pending: seq<Response>): (d: Drain<ScmConfig>)
    ensures d.consumed <= |pending|
  {
    match memo
    case Some(dep) => ConfigsFrom(dep.id, pending, JNull)
    case None =>
      match DeploymentReply(Head(pending))
      case Failure(e) => Drain(Failure(e), [DeploymentRequest], if pending == [] then 0 else 1)
      case Success(dep) => Extend([], [DeploymentRequest], 1, ConfigsFrom(dep.id, pending[1..], JNull))
  }

  /** The cached deployment after `list_scm_configs`: set by a successful fetch, else unchanged. */
  function MemoAfter(memo: Option<DeploymentInfo>, pending: seq<Response>): Option<DeploymentInfo> {
    if memo.Some? then memo
    else
      match DeploymentReply(Head(pending))
      case Success(dep) => Some(dep)
      case Failure(_) => None
  }

  /** Every request of the listing is a `GET` of the config collection. */
  lemma {:induction false} ConfigsRequestsAreGets(deploymentId: Json, pending: seq<Response>, cursor: Json)
    ensures ReadOnly(ConfigsFrom(deploymentId, pending, cursor).requests)
    ensures forall r :: r in ConfigsFrom(deploymentId, pending, cursor).requests ==> r.endpoint == ScmConfigs(deploymentId)
    decreases |pending|
  {
    if pending != [] && ConfigsPageOf(pending[0]).Success? && Truthy(ConfigsPageOf(pending[0]).value.cursor) {
      ConfigsRequestsAreGets(deploymentId, pending[1..], ConfigsPageOf(pending[0]).value.cursor);
    }
  }

  /** The listing, deployment fetch included, changes nothing remotely. */
  lemma ListRunReadOnly(memo: Option<DeploymentInfo>, pending: seq<Response>)
    ensures ReadOnly(ListRun(memo, pending).requests)
  {
    match memo
    case Some(dep) => ConfigsRequestsAreGets(dep.id, pending, JNull);
    case None =>
      match DeploymentReply(Head(pending))
      case Failure(_) =>
      case Success(dep) =>
        ConfigsRequestsAreGets(dep.id, pending[1..], JNull);
  }

  /** A successful listing read `consumed` pages, one per request, all parsed, the last without a cursor. */
  lemma {:induction false} ConfigsFromPages(deploymentId: Json, pending: seq<Response>, cursor: Json)
    requires ConfigsFrom(deploymentId, pending, cursor).result.Success?
    ensures var d := ConfigsFrom(deploymentId, pending, cursor);
      && 1 <= d.consumed == |d.requests| <= |pending|
      && (forall i :: 0 <= i < d.consumed ==> ConfigsPageOf(pending[i]).Success?)
      && !Truthy(PageCursor(pending[d.consumed - 1]))
    decreases |pending|
  {
    var page := ConfigsPageOf(pending[0]).value;
    if Truthy(page.cursor) {
      var rest := ConfigsFrom(deploymentId, pending[1..], page.cursor);
      ConfigsFromPages(deploymentId, pending[1..], page.cursor);
      forall i | 1 <= i < 1 + rest.consumed
        ensures pending[i] == pending[1..][i - 1]
      {
      }
    }
  }

  /**
   * In a successful listing every page but the last handed back a non-empty
   * cursor, which the next request carries.
   */
  lemma {:induction false} ConfigsFromChain(deploymentId: Json, pending: seq<Response>, cursor: Json)
    requires ConfigsFrom(deploymentId, pending, cursor).result.Success?
    ensures var d := ConfigsFrom(deploymentId, pending, cursor);
      d.consumed <= |d.requests| &&
      forall i :: 0 <= i < d.consumed - 1 ==>
        Truthy(PageCursor(pending[i])) &&
        d.requests[i + 1] == ConfigsPageRequest(deploymentId, PageCursor(pending[i]))
    decreases |pending|
  {
    ConfigsFromPages(deploymentId, pending, cursor);
    var page := ConfigsPageOf(pending[0]).value;
    if Truthy(page.cursor) {
      var d := ConfigsFrom(deploymentId, pending, cursor);
      var rest := ConfigsFrom(deploymentId, pending[1..], page.cursor);
      ConfigsFromChain(deploymentId, pending[1..], page.cursor);
      assert d.requests == [ConfigsPageRequest(deploymentId, cursor)] + rest.requests;
      assert d.consumed == 1 + rest.consumed;
      forall i | 0 <= i < d.consumed - 1
        ensures Truthy(PageCursor(pending[i]))
        ensures d.requests[i + 1] == ConfigsPageRequest(deploymentId, PageCursor(pending[i]))
      {
        if i == 0 {
          assert PageCursor(pending[0]) == page.cursor;
        } else {
          assert pending[i] == pending[1..][i - 1];
          ConsAt(ConfigsPageRequest(deploymentId, cursor), rest.requests, i);
        }
      }
    }
  }

  /** A successful listing returns the configs of the pages it read, in order. */
  lemma {:induction false} ConfigsFromItems(deploymentId: Json, pending: seq<Response>, cursor: Json)
    requires ConfigsFrom(deploymentId, pending, cursor).result.Success?
    ensures var d := ConfigsFrom(deploymentId, pending, cursor);
      d.consumed <= |pending| && d.result.value == AllConfigs(pending[..d.consumed])
    decreases |pending|
  {
    var d := ConfigsFrom(deploymentId, pending, cursor);
    var page := ConfigsPageOf(pending[0]).value;
    if !Truthy(page.cursor) {
      assert pending[..1] == [pending[0]];
      assert AllConfigs(pending[..1]) == PageConfigs(pending[0]) + AllConfigs([]);
    } else {
      var rest := ConfigsFrom(deploymentId, pending[1..], page.cursor);
      ConfigsFromItems(deploymentId, pending[1..], page.cursor);
      assert d.consumed == 1 + rest.consumed;
      assert pending[..d.consumed][1..] == pending[1..][..rest.consumed];
      assert AllConfigs(pending[..d.consumed]) == PageConfigs(pending[0]) + AllConfigs(pending[1..][..rest.consumed]);
    }
  }

  /** `access_token`/`source_id` are sent only when truthy. */
  predicate GivenText(o: Option<string>) {
    o.Some? && o.value != ""
  }

  /** `scm_config_id` is sent only when truthy. */
  predicate GivenId(o: Option<int>) {
    o.Some? && o.value != 0
  }

  /** The six keys every creation body carries. */
  function CreateBase(
    scmType: ScmType, namespace: string, baseUrl: string,
    subscribe: bool, autoScan: bool, diffEnabled: bool): map<string, Json>
  {
    map[
      "type" := JStr(scmType.Value()),
      "namespace" := JStr(namespace),
      "baseUrl" := JStr(baseUrl),
      "subscribe" := JBool(subscribe),
      "autoScan" := JBool(autoScan),
      "autoScanSettings" := JObj(map["diffEnabled" := JBool(diffEnabled)])]
  }

  function WithText(body: map<string, Json>, key: string, o: Option<string>): map<string, Json> {
    if GivenText(o) then body[key := JStr(o.value)] else body
  }

  function WithId(body: map<string, Json>, key: string, o: Option<int>): map<string, Json> {
    if GivenId(o) then body[key := JInt(o.value)] else body
  }

  /** The body `create_scm_config` posts. */
  function CreateBody(
    scmType: ScmType, namespace: string, baseUrl: string,
    accessToken: Option<string>, sourceId: Option<string>, scmConfigId: Option<int>,
    subscribe: bool, autoScan: bool, diffEnabled: bool): map<string, Json>
  {
    var base := CreateBase(scmType, namespace, baseUrl, subscribe, autoScan, diffEnabled);
    WithId(WithText(WithText(base, "accessToken", accessToken), "sourceId", sourceId), "scmConfigId", scmConfigId)
  }

  lemma CreateBaseKeys(scmType: ScmType, namespace: string, baseUrl: string, subscribe: bool, autoScan: bool, diffEnabled: bool)
    ensures CreateBase(scmType, namespace, baseUrl, subscribe, autoScan, diffEnabled).Keys ==
      {"type", "namespace", "baseUrl", "subscribe", "autoScan", "autoScanSettings"}
  {
  }

  lemma WithTextKeys(body: map<string, Json>, key: string, o: Option<string>)
    ensures WithText(body, key, o).Keys == body.Keys + if GivenText(o) then {key} else {}
  {
  }

  lemma WithIdKeys(body: map<string, Json>, key: string, o: Option<int>)
    ensures WithId(body, key, o).Keys == body.Keys + if GivenId(o) then {key} else {}
  {
  }

  /** The creation body carries the six fixed keys, and each optional key exactly when its value is truthy. */
  lemma CreateBodyKeys(
    scmType: ScmType, namespace: string, baseUrl: string,
    accessToken: Option<string>, sourceId: Option<string>, scmConfigId: Option<int>,
    subscribe: bool, autoScan: bool, diffEnabled: bool)
    ensures CreateBody(scmType, namespace, baseUrl, accessToken, sourceId, scmConfigId, subscribe, autoScan, diffEnabled).Keys ==
      {"type", "namespace", "baseUrl", "subscribe", "autoScan", "autoScanSettings"}
      + (if GivenText(accessToken) then {"accessToken"} else {})
      + (if GivenText(sourceId) then {"sourceId"} else {})
      + (if GivenId(scmConfigId) then {"scmConfigId"} else {})
  {
    var base := CreateBase(scmType, namespace, baseUrl, subscribe, autoScan, diffEnabled);
    var withToken := WithText(base, "accessToken", accessToken);
    CreateBaseKeys(scmType, namespace, baseUrl, subscribe, autoScan, diffEnabled);
    WithTextKeys(base, "accessToken", accessToken);
    WithTextKeys(withToken, "sourceId", sourceId);
    WithIdKeys(WithText(withToken, "sourceId", sourceId), "scmConfigId", scmConfigId);
  }

  /** A key other than the three optional ones passes through the optional additions unchanged. */
  lemma KeptThroughOptional(
    base: map<string, Json>, k: string,
    accessToken: Option<string>, sourceId: Option<string>, scmConfigId: Option<int>)
    requires k in base && k != "accessToken" && k != "sourceId" && k != "scmConfigId"
    ensures var body := WithId(WithText(WithText(base, "accessToken", accessToken), "sourceId", sourceId), "scmConfigId", scmConfigId);
      k in body && body[k] == base[k]
  {
  }

  /** The six fixed keys of the creation body hold the values they were given. */
  lemma CreateBodyFixed(
    scmType: ScmType, namespace: string, baseUrl: string,
    accessToken: Option<string>, sourceId: Option<string>, scmConfigId: Option<int>,
    subscribe: bool, autoScan: bool, diffEnabled: bool)
    ensures var body := CreateBody(scmType, namespace, baseUrl, accessToken, sourceId, scmConfigId, subscribe, autoScan, diffEnabled);
      && "type" in body && body["type"] == JStr(scmType.Value())
      && "namespace" in body && body["namespace"] == JStr(namespace)
      && "baseUrl" in body && body["baseUrl"] == JStr(baseUrl)
      && "subscribe" in body && body["subscribe"] == JBool(subscribe)
      && "autoScan" in body && body["autoScan"] == JBool(autoScan)
      && "autoScanSettings" in body && body["autoScanSettings"] == JObj(map["diffEnabled" := JBool(diffEnabled)])
  {
    var base := CreateBase(scmType, namespace, baseUrl, subscribe, autoScan, diffEnabled);
    KeptThroughOptional(base, "type", accessToken, sourceId, scmConfigId);
    KeptThroughOptional(base, "namespace", accessToken, sourceId, scmConfigId);
    KeptThroughOptional(base, "baseUrl", accessToken, sourceId, scmConfigId);
    KeptThroughOptional(base, "subscribe", accessToken, sourceId, scmConfigId);
    KeptThroughOptional(base, "autoScan", accessToken, sourceId, scmConfigId);
    KeptThroughOptional(base, "autoScanSettings", accessToken, sourceId, scmConfigId);
  }

  /** Each optional key of the creation body, when present, holds the value it was given. */
  lemma CreateBodyOptional(
    scmType: ScmType, namespace: string, baseUrl: string,
    accessToken: Option<string>, sourceId: Option<string>, scmConfigId: Option<int>,
    subscribe: bool, autoScan: bool, diffEnabled: bool)
    ensures var body := CreateBody(scmType, namespace, baseUrl, accessToken, sourceId, scmConfigId, subscribe, autoScan, diffEnabled);
      && ("accessToken" in body ==> accessToken.Some? && body["accessToken"] == JStr(accessToken.value))
      && ("sourceId" in body ==> sourceId.Some? && body["sourceId"] == JStr(sourceId.value))
      && ("scmConfigId" in body ==> scmConfigId.Some? && body["scmConfigId"] == JInt(scmConfigId.value))
  {
  }

  /** `create_scm_config` building its body in place. */
  method BuildCreateBody(
    scmType: ScmType, namespace: string, baseUrl: string,
    accessToken: Option<string>, sourceId: Option<string>, scmConfigId: Option<int>,
    subscribe: bool, autoScan: bool, diffEnabled: bool) returns (body: map<string, Json>)
    ensures body == CreateBody(scmType, namespace, baseUrl, accessToken, sourceId, scmConfigId, subscribe, autoScan, diffEnabled)
  {
    body := map[
      "type" := JStr(scmType.Value()),
      "namespace" := JStr(namespace),
      "baseUrl" := JStr(baseUrl),
      "subscribe" := JBool(subscribe),
      "autoScan" := JBool(autoScan),
      "autoScanSettings" := JObj(map["diffEnabled" := JBool(diffEnabled)])];
    ghost var expected := CreateBase(scmType, namespace, baseUrl, subscribe, autoScan, diffEnabled);
    assert body == expected;
    if accessToken.Some? && accessToken.value != "" {
      body := body["accessToken" := JStr(accessToken.value)];
    }
    expected := WithText(expected, "accessToken", accessToken);
    assert body == expected;
    if sourceId.Some? && sourceId.value != "" {
      body := body["sourceId" := JStr(sourceId.value)];
    }
    expected := WithText(expected, "sourceId", sourceId);
    assert body == expected;
    if scmConfigId.Some? && scmConfigId.value != 0 {
      body := body["scmConfigId" := JInt(scmConfigId.value)];
    }
    expected := WithId(expected, "scmConfigId", scmConfigId);
    assert body == expected;
  }

  /** The body `patch_scm_config` sends: only the settings that are given. */
  function PatchBody(subscribe: Option<bool>, autoScan: Option<bool>, useNetworkBroker: Option<bool>, diffEnabled: Option<bool>): (body: map<string, Json>)
    ensures ("subscribe" in body <==> subscribe.Some?) && ("subscribe" in body ==> body["subscribe"] == JBool(subscribe.value))
    ensures ("autoScan" in body <==> autoScan.Some?) && ("autoScan" in body ==> body["autoScan"] == JBool(autoScan.value))
    ensures ("useNetworkBroker" in body <==> useNetworkBroker.Some?) &&
            ("useNetworkBroker" in body ==> body["useNetworkBroker"] == JBool(useNetworkBroker.value))
    ensures ("autoScanSettings" in body <==> diffEnabled.Some?) &&
            ("autoScanSettings" in body ==> body["autoScanSettings"] == JObj(map["diffEnabled" := JBool(diffEnabled.value)]))
    ensures body.Keys <= {"subscribe", "autoScan", "useNetworkBroker", "autoScanSettings"}
    ensures body == map[] <==> subscribe.None? && autoScan.None? && useNetworkBroker.None? && diffEnabled.None?
  {
    var b0: map<string, Json> := map[];
    var b1 := if subscribe.Some? then b0["subscribe" := JBool(subscribe.value)] else b0;
    var b2 := if autoScan.Some? then b1["autoScan" := JBool(autoScan.value)] else b1;
    var b3 := if useNetworkBroker.Some? then b2["useNetworkBroker" := JBool(useNetworkBroker.value)] else b2;
    if diffEnabled.Some? then b3["autoScanSettings" := JObj(map["diffEnabled" := JBool(diffEnabled.value)])] else b3
  }

  /** `patch_scm_config` building its body in place. */
  method BuildPatchBody(subscribe: Option<bool>, autoScan: Option<bool>, useNetworkBroker: Option<bool>, diffEnabled: Option<bool>)
    returns (body: map<string, Json>)
    ensures body == PatchBody(subscribe, autoScan, useNetworkBroker, diffEnabled)
  {
    body := map[];
    if subscribe.Some? {
      body := body["subscribe" := JBool(subscribe.value)];
    }
    if autoScan.Some? {
      body := body["autoScan" := JBool(autoScan.value)];
    }
    if useNetworkBroker.Some? {
      body := body["useNetworkBroker" := JBool(useNetworkBroker.value)];
    }
    if diffEnabled.Some? {
      body := body["autoScanSettings" := JObj(map["diffEnabled" := JBool(diffEnabled.value)])];
    }
  }

  /** A listing that succeeds without a cached deployment has fetched one and cached it. */
  lemma ListRunDeployment(pending: seq<Response>)
    requires ListRun(None, pending).result.Success?
    ensures DeploymentReply(Head(pending)).Success?
    ensures MemoAfter(None, pending) == Some(DeploymentReply(Head(pending)).value)
  {
  }

  /**
   * Although the loop reads the `deployment` property on every page, one
   * listing fetches the deployment at most once: only as its first request,
   * and only when none was cached.
   */
  lemma ListRunFetchesDeploymentOnce(memo: Option<DeploymentInfo>, pending: seq<Response>)
    ensures var rs := ListRun(memo, pending).requests;
      forall i :: 0 <= i < |rs| && rs[i].endpoint == AgentDeployment ==> i == 0 && memo.None?
    ensures memo.None? ==> ListRun(memo, pending).requests[0] == DeploymentRequest
  {
    match memo
    case Some(dep) => ConfigsRequestsAreGets(dep.id, pending, JNull);
    case None =>
      match DeploymentReply(Head(pending))
      case Failure(_) =>
      case Success(dep) =>
        var rest := ConfigsFrom(dep.id, pending[1..], JNull);
        ConfigsRequestsAreGets(dep.id, pending[1..], JNull);
        var rs := ListRun(memo, pending).requests;
        assert rs == [DeploymentRequest] + rest.requests;
        forall i | 1 <= i < |rs|
          ensures rs[i].endpoint != AgentDeployment
        {
          assert rs[i] == rest.requests[i - 1];
          assert rs[i] in rest.requests;
        }
  }

  /** A successful deployment fetch hands the listing over to `ConfigsFrom`. */
  lemma ListRunFetched(pending: seq<Response>, dep: DeploymentInfo)
    requires DeploymentReply(Head(pending)) == Success(dep)
    ensures pending != []
    ensures ListRun(None, pending) == Extend([], [DeploymentRequest], 1, ConfigsFrom(dep.id, pending[1..], JNull))
  {
  }

  /** After a successful fetch of the deployment, the listing is that request followed by the page drain. */
  lemma ListRunAfterFetch(pending: seq<Response>, dep: DeploymentInfo, sent0: seq<Request>)
    requires DeploymentReply(Head(pending)) == Success(dep)
    ensures pending != []
    ensures var d := ConfigsFrom(dep.id, pending[1..], JNull);
      var run := ListRun(None, pending);
      && run.result == d.result
      && sent0 + run.requests == (sent0 + [DeploymentRequest]) + d.requests
      && pending[run.consumed..] == pending[1..][d.consumed..]
  {
    var d := ConfigsFrom(dep.id, pending[1..], JNull);
    ListRunFetched(pending, dep);
    if d.result.Success? {
      assert [] + d.result.value == d.result.value;
    }
    AppendAssoc(sent0, [DeploymentRequest], d.requests);
    DropDrop(pending, 1, d.consumed);
  }

  /** One page of the listing, read successfully. */
  lemma ConfigsFromPage(deploymentId: Json, pending: seq<Response>, cursor: Json)
    requires pending != [] && ConfigsPageOf(pending[0]).Success?
    ensures var page := ConfigsPageOf(pending[0]).value;
      var rest := ConfigsFrom(deploymentId, pending[1..], page.cursor);
      ConfigsFrom(deploymentId, pending, cursor) ==
        if Truthy(page.cursor) then Extend(page.configs, [ConfigsPageRequest(deploymentId, cursor)], 1, rest)
        else Drain(Success(page.configs), [ConfigsPageRequest(deploymentId, cursor)], 1)
  {
  }

  /** A listing whose first page request fails stops there, with that error. */
  lemma ConfigsFromFirstFails(deploymentId: Json, pending: seq<Response>, cursor: Json)
    requires pending == [] || ConfigsPageOf(pending[0]).Failure?
    ensures ConfigsFrom(deploymentId, pending, cursor) ==
      Drain(Failure(if pending == [] then TransportFailure else ConfigsPageOf(pending[0]).error),
            [ConfigsPageRequest(deploymentId, cursor)], if pending == [] then 0 else 1)
  {
  }

  /** A listing whose deployment fetch fails stops there, with that error. */
  lemma ListRunUnfetched(pending: seq<Response>)
    requires DeploymentReply(Head(pending)).Failure?
    ensures ListRun(None, pending) ==
      Drain(Failure(DeploymentReply(Head(pending)).error), [DeploymentRequest], if pending == [] then 0 else 1)
  {
  }

  /** The loop's step: a page read successfully moves its configs and its request into the prefix. */
  lemma ListStep(configs: seq<ScmConfig>, reqs: seq<Request>, k: nat, deploymentId: Json, pending: seq<Response>, cursor: Json)
    requires pending != [] && ConfigsPageOf(pending[0]).Success?
    ensures var page := ConfigsPageOf(pending[0]).value;
      var req := ConfigsPageRequest(deploymentId, cursor);
      Extend(configs, reqs, k, ConfigsFrom(deploymentId, pending, cursor)) ==
        if Truthy(page.cursor) then Extend(configs + page.configs, reqs + [req], k + 1, ConfigsFrom(deploymentId, pending[1..], page.cursor))
        else Drain(Success(configs + page.configs), reqs + [req], k + 1)
  {
    var page := ConfigsPageOf(pending[0]).value;
    var req := ConfigsPageRequest(deploymentId, cursor);
    ConfigsFromPage(deploymentId, pending, cursor);
    if Truthy(page.cursor) {
      ExtendTwice(configs, reqs, k, page.configs, [req], 1, ConfigsFrom(deploymentId, pending[1..], page.cursor));
    }
  }

  /** `SemgrepClient`: the token goes into headers; the cached deployment is its only state. */
  class Client {
    /** `_deployment`: `None` until a fetch succeeds. */
    var deploymentMemo: Option<DeploymentInfo>

    constructor ()
      ensures deploymentMemo == None
    {
      deploymentMemo := None;
    }

    /** `get_deployment`: always fetches. */
    method GetDeployment(t: Transport) returns (r: Result<DeploymentInfo, ClientError>)
      modifies t
      ensures t.sent == old(t.sent) + [DeploymentRequest] && t.pending == Tail(old(t.pending))
      ensures r == DeploymentReply(Head(old(t.pending)))
    {
      var resp := t.Send(DeploymentRequest);
      r := DeploymentReply(resp);
    }

    /**
     * The `deployment` property: fetch only while nothing is cached; a cached
     * deployment is returned without any request.
     */
    method Deployment(t: Transport) returns (r: Result<DeploymentInfo, ClientError>)
      modifies this, t
      ensures old(deploymentMemo).Some? ==>
        r == Success(old(deploymentMemo).value) && deploymentMemo == old(deploymentMemo) &&
        t.sent == old(t.sent) && t.pending == old(t.pending)
      ensures old(deploymentMemo).None? ==>
        t.sent == old(t.sent) + [DeploymentRequest] && t.pending == Tail(old(t.pending)) &&
        r == DeploymentReply(Head(old(t.pending))) &&
        deploymentMemo == (if r.Success? then Some(r.value) else None)
    {
      if deploymentMemo.None? {
        var fetched := GetDeployment(t);
        if fetched.Success? {
          deploymentMemo := Some(fetched.value);
        }
        return fetched;
      }
      return Success(deploymentMemo.value);
    }

    /**
     * One iteration's reading of a listing response: raise on an error status,
     * parse the configs one by one, and take the cursor.
     */
    static method ReadConfigsPage(resp: Response) returns (page: Result<ConfigsPage, ClientError>)
      ensures page == ConfigsPageOf(resp)
    {
      var data := HandleResponse(resp);
      if data.Failure? {
        return Failure(data.error);
      }
      if !data.value.JObj? {
        return Failure(Malformed);
      }
      var m := data.value.fields;
      var items := ConfigItems(GetOr(m, "configs", JArr([])));
      if items.Failure? {
        return Failure(items.error);
      }
      var configs: seq<ScmConfig> := [];
      var i := 0;
      while i < |items.value|
        invariant 0 <= i <= |items.value|
        invariant ParseScmConfigs(items.value[..i]) == Success(configs)
      {
        var config := ParseScmConfig(items.value[i]);
        if config.Failure? {
          assert !ParseScmConfigs(items.value).Success?;
          return Failure(config.error);
        }
        assert items.value[..i + 1][..i] == items.value[..i];
        configs := configs + [config.value];
        i := i + 1;
      }
      assert items.value[..|items.value|] == items.value;
      return Success(ConfigsPage(configs, Get(m, "cursor")));
    }

    /** One page request of the listing and the reading of its response. */
    static method FetchConfigsPage(t: Transport, deploymentId: Json, cursor: Json)
      returns (page: Result<ConfigsPage, ClientError>)
      modifies t
      ensures t.sent == old(t.sent) + [ConfigsPageRequest(deploymentId, cursor)] && t.pending == Tail(old(t.pending))
      ensures old(t.pending) == [] ==> page == Failure(TransportFailure)
      ensures old(t.pending) != [] ==> page == ConfigsPageOf(old(t.pending)[0])
    {
      var resp := t.Send(ConfigsPageRequest(deploymentId, cursor));
      if resp.None? {
        return Failure(TransportFailure);
      }
      page := ReadConfigsPage(resp.value);
    }

    /**
     * The pagination loop of `list_scm_configs` once the deployment is
     * cached: every iteration reads the `deployment` property, which now
     * returns the cached field without a request.
     */
    method DrainConfigs(t: Transport) returns (r: Result<seq<ScmConfig>, ClientError>)
      requires deploymentMemo.Some?
      modifies t
      ensures var d := ConfigsFrom(deploymentMemo.value.id, old(t.pending), JNull);
        r == d.result && t.sent == old(t.sent) + d.requests && t.pending == old(t.pending)[d.consumed..]
    {
      ghost var id := deploymentMemo.value.id;
      var configs: seq<ScmConfig> := [];
      var cursor := JNull;
      ghost var reqs: seq<Request> := [];
      ghost var k: nat := 0;
      ghost var whole := ConfigsFrom(id, t.pending, cursor);
      ExtendNothing(whole);
      while true
        invariant k <= |old(t.pending)| && t.pending == old(t.pending)[k..]
        invariant t.sent == old(t.sent) + reqs
        invariant whole == Extend(configs, reqs, k, ConfigsFrom(id, t.pending, cursor))
        decreases |t.pending|
      {
        ghost var before := t.pending;
        var page := FetchConfigsPage(t, deploymentMemo.value.id, cursor);
        TailDrop(old(t.pending), k);
        AppendAssoc(old(t.sent), reqs, [ConfigsPageRequest(id, cursor)]);
        if page.Failure? {
          ConfigsFromFirstFails(id, before, cursor);
          return Failure(page.error);
        }
        ListStep(configs, reqs, k, id, before, cursor);
        configs := configs + page.value.configs;
        reqs := reqs + [ConfigsPageRequest(id, cursor)];
        k := k + 1;
        cursor := page.value.cursor;
        if !Truthy(cursor) {
          return Success(configs);
        }
      }
    }

    /** `list_scm_configs`, over the scripted transport: the first read of `deployment` may fetch it. */
    method ListScmConfigs(t: Transport) returns (r: Result<seq<ScmConfig>, ClientError>)
      modifies this, t
      ensures var d := ListRun(old(deploymentMemo), old(t.pending));
        r == d.result && t.sent == old(t.sent) + d.requests && t.pending == old(t.pending)[d.consumed..]
      ensures deploymentMemo == MemoAfter(old(deploymentMemo), old(t.pending))
    {
      ghost var p := t.pending;
      ghost var cached := deploymentMemo.Some?;
      var dep := Deployment(t);
      if dep.Failure? {
        ListRunUnfetched(p);
        return Failure(dep.error);
      }
      if !cached {
        ListRunAfterFetch(p, dep.value, old(t.sent));
      }
      r := DrainConfigs(t);
    }

    /** `create_scm_config`: one POST of `CreateBody`, once the deployment is known. */
    method CreateScmConfig(
      t: Transport, scmType: ScmType, namespace: string, baseUrl: string,
      accessToken: Option<string>, sourceId: Option<string>, scmConfigId: Option<int>,
      subscribe: bool, autoScan: bool, diffEnabled: bool) returns (r: Result<ScmConfig, ClientError>)
      modifies this, t
      ensures var body := CreateBody(scmType, namespace, baseUrl, accessToken, sourceId, scmConfigId, subscribe, autoScan, diffEnabled);
        old(deploymentMemo).Some? ==>
          deploymentMemo == old(deploymentMemo) &&
          t.sent == old(t.sent) + [CreateRequest(old(deploymentMemo).value.id, body)] &&
          t.pending == Tail(old(t.pending)) && r == ConfigReply(Head(old(t.pending)))
      ensures var body := CreateBody(scmType, namespace, baseUrl, accessToken, sourceId, scmConfigId, subscribe, autoScan, diffEnabled);
        var dep := DeploymentReply(Head(old(t.pending)));
        old(deploymentMemo).None? ==>
          deploymentMemo == (if dep.Success? then Some(dep.value) else None) &&
          (dep.Failure? ==> r == Failure(dep.error) && t.sent == old(t.sent) + [DeploymentRequest]) &&
          (dep.Success? ==>
            t.sent == old(t.sent) + [DeploymentRequest, CreateRequest(dep.value.id, body)] &&
            r == ConfigReply(Head(Tail(old(t.pending)))))
    {
      var body := BuildCreateBody(scmType, namespace, baseUrl, accessToken, sourceId, scmConfigId, subscribe, autoScan, diffEnabled);
      var dep := Deployment(t);
      if dep.Failure? {
        return Failure(dep.error);
      }
      var resp := t.Send(CreateRequest(dep.value.id, body));
      r := ConfigReply(resp);
    }

    /** `patch_scm_config`: one PATCH of `PatchBody`, once the deployment is known. */
    method PatchScmConfig(
      t: Transport, configId: Json,
      subscribe: Option<bool>, autoScan: Option<bool>, useNetworkBroker: Option<bool>, diffEnabled: Option<bool>)
      returns (r: Result<ScmConfig, ClientError>)
      modifies this, t
      ensures var body := PatchBody(subscribe, autoScan, useNetworkBroker, diffEnabled);
        old(deploymentMemo).Some? ==>
          deploymentMemo == old(deploymentMemo) &&
          t.sent == old(t.sent) + [PatchRequest(old(deploymentMemo).value.id, configId, body)] &&
          t.pending == Tail(old(t.pending)) && r == ConfigReply(Head(old(t.pending)))
      ensures var body := PatchBody(subscribe, autoScan, useNetworkBroker, diffEnabled);
        var dep := DeploymentReply(Head(old(t.pending)));
        old(deploymentMemo).None? ==>
          deploymentMemo == (if dep.Success? then Some(dep.value) else None) &&
          (dep.Failure? ==> r == Failure(dep.error) && t.sent == old(t.sent) + [DeploymentRequest]) &&
          (dep.Success? ==>
            t.sent == old(t.sent) + [DeploymentRequest, PatchRequest(dep.value.id, configId, body)] &&
            r == ConfigReply(Head(Tail(old(t.pending)))))
    {
      var body := BuildPatchBody(subscribe, autoScan, useNetworkBroker, diffEnabled);
      var dep := Deployment(t);
      if dep.Failure? {
        return Failure(dep.error);
      }
      var resp := t.Send(PatchRequest(dep.value.id, configId, body));
      r := ConfigReply(resp);
    }

    /** `check_scm_config`: one GET of the check endpoint, once the deployment is known. */
    method CheckScmConfig(t: Transport, configId: Json) returns (r: Result<CheckResult, ClientError>)
      modifies this, t
      ensures old(deploymentMemo).Some? ==>
        deploymentMemo == old(deploymentMemo) &&
        t.sent == old(t.sent) + [CheckRequest(old(deploymentMemo).value.id, configId)] &&
        t.pending == Tail(old(t.pending)) && r == CheckReply(Head(old(t.pending)))
      ensures var dep := DeploymentReply(Head(old(t.pending)));
        old(deploymentMemo).None? ==>
          deploymentMemo == (if dep.Success? then Some(dep.value) else None) &&
          (dep.Failure? ==> r == Failure(dep.error) && t.sent == old(t.sent) + [DeploymentRequest]) &&
          (dep.Success? ==>
            t.sent == old(t.sent) + [DeploymentRequest, CheckRequest(dep.value.id, configId)] &&
            r == CheckReply(Head(Tail(old(t.pending)))))
    {
      var dep := Deployment(t);
      if dep.Failure? {
        return Failure(dep.error);
      }
      var resp := t.Send(CheckRequest(dep.value.id, configId));
      r := CheckReply(resp);
    }
  }
}

=== FILE: text.dfy ===
/**
 * The few string operations of Python's `str` that the tool relies on:
 * `lower()`, `rstrip(chars)`, `strip()`, `startswith`, `endswith`, and
 * the decimal rendering of a status code.
 */
module Text {

  /** `c in "/"`: the character `rstrip("/")` removes. */
  predicate IsSlash(c: char) {
    c == '/'
  }

  /** `str.isspace()` for one character: the code points Python treats as whitespace. */
  predicate IsSpace(c: char) {
    var n := c as int;
    n == 0x20 || 0x09 <= n <= 0x0D || 0x1C <= n <= 0x1F || n == 0x85 || n == 0xA0
    || n == 0x1680 || 0x2000 <= n <= 0x200A || n == 0x2028 || n == 0x2029
    || n == 0x202F || n == 0x205F || n == 0x3000
  }

  /** `str.lower()` on one character, for the ASCII letters. */
  function LowerChar(c: char): char {
    if 'A' <= c <= 'Z' then (c as int + 32) as char else c
  }

  /** `str.lower()`, character by character. */
  function Lower(s: string): string {
    seq(|s|, i requires 0 <= i < |s| => LowerChar(s[i]))
  }

  lemma LowerCharIdempotent(c: char)
    ensures LowerChar(LowerChar(c)) == LowerChar(c)
  {
  }

  /** Lowering twice is lowering once. */
  lemma LowerIdempotent(s: string)
    ensures Lower(Lower(s)) == Lower(s)
  {
    forall i | 0 <= i < |s|
      ensures Lower(Lower(s))[i] == Lower(s)[i]
    {
      LowerCharIdempotent(s[i]);
    }
  }

  /** `s.rstrip(chars)`: drop the longest suffix whose characters all satisfy `p`. */
  function DropTrailing(s: string, p: char -> bool): (r: string)
    ensures |r| <= |s| && r == s[..|r|]
    ensures r == [] || !p(r[|r| - 1])
    ensures forall i :: |r| <= i < |s| ==> p(s[i])
    decreases |s|
  {
    if s != [] && p(s[|s| - 1]) then DropTrailing(s[..|s| - 1], p) else s
  }

  /** `s.lstrip(chars)`: drop the longest prefix whose characters all satisfy `p`. */
  function DropLeading(s: string, p: char -> bool): (r: string)
    ensures |r| <= |s| && r == s[|s| - |r|..]
    ensures r == [] || !p(r[0])
    ensures forall i :: 0 <= i < |s| - |r| ==> p(s[i])
    decreases |s|
  {
    if s != [] && p(s[0]) then DropLeading(s[1..], p) else s
  }

  /** `s.strip()`: whitespace removed at both ends. */
  function Strip(s: string): (r: string)
    ensures r == [] || (!IsSpace(r[0]) && !IsSpace(r[|r| - 1]))
  {
    DropLeading(DropTrailing(s, IsSpace), IsSpace)
  }

  /** A string whose ends are not whitespace is its own `strip()`. */
  lemma StripIdempotent(s: string)
    ensures Strip(Strip(s)) == Strip(s)
  {
    var r := Strip(s);
    assert DropTrailing(r, IsSpace) == r;
    assert DropLeading(r, IsSpace) == r;
  }

  predicate StartsWith(s: string, prefix: string) {
    |prefix| <= |s| && s[..|prefix|] == prefix
  }

  predicate EndsWith(s: string, suffix: string) {
    |suffix| <= |s| && s[|s| - |suffix|..] == suffix
  }

  /** Stripping trailing slashes commutes with lowering: `s.rstrip("/").lower() == s.lower().rstrip("/")`. */
  lemma {:induction false} LowerDropTrailingSlash(s: string)
    ensures Lower(DropTrailing(s, IsSlash)) == DropTrailing(Lower(s), IsSlash)
    decreases |s|
  {
    if s != [] && IsSlash(s[|s| - 1]) {
      assert Lower(s)[..|s| - 1] == Lower(s[..|s| - 1]);
      LowerDropTrailingSlash(s[..|s| - 1]);
    } else if s != [] {
      assert !IsSlash(Lower(s)[|s| - 1]);
    }
  }

  function Digit(d: nat): char
    requires d < 10
  {
    ('0' as int + d) as char
  }

  /** `str(n)` for a natural number: decimal digits, most significant first. */
  function NatToDecimal(n: nat): (r: string)
    ensures r != [] && forall i :: 0 <= i < |r| ==> '0' <= r[i] <= '9'
    decreases n
  {
    if n < 10 then [Digit(n)] else NatToDecimal(n / 10) + [Digit(n % 10)]
  }

  /** The number a string of decimal digits denotes. */
  function DecimalValue(s: string): nat
    requires forall i :: 0 <= i < |s| ==> '0' <= s[i] <= '9'
  {
    if s == [] then 0 else 10 * DecimalValue(s[..|s| - 1]) + (s[|s| - 1] as int - '0' as int)
  }

  /** Rendering a status code in decimal loses nothing. */
  lemma {:induction false} DecimalRoundTrip(n: nat)
    ensures DecimalValue(NatToDecimal(n)) == n
    decreases n
  {
    if n >= 10 {
      var s := NatToDecimal(n);
      assert s[..|s| - 1] == NatToDecimal(n / 10);
      DecimalRoundTrip(n / 10);
    }
  }
}

=== FILE: wrappers.dfy ===
/** Option and Result, the failure-compatible wrappers the rest of the model uses. */
module Wrappers {

  datatype Option<+T> = None | Some(value: T)

  datatype Result<+T, +E> = Success(value: T) | Failure(error: E) {

    predicate IsFailure() {
      Failure?
    }

    function PropagateFailure<U>(): Result<U, E>
      requires Failure?
    {
      Failure(error)
    }

    function Extract(): T
      requires Success?
    {
      value
    }
  }
}
